=== FILE: README.md ===
# mcp-linker decision and transformation logic, in Dafny

mcp-linker is a desktop application that installs, enables, disables and synchronises MCP
(Model Context Protocol) server configurations across AI clients (Claude Desktop, Cursor,
Cline, Codex, ...). Most of it is user interface. This project models the parts of it that
decide or transform something, as pure functions over immutable datatypes, and proves
properties of them:

- `McpSync` (`mcp_sync.dfy`): `sync_mcp_config`. It copies one client's `mcpServers` and
  `__disabled` tables into another client's file. With `override_all` the tables are replaced;
  otherwise the merge is additive and destination-wins. Passes then convert between the
  `__disabled` table and the per-entry `"disabled": true` / `"isActive": false` flags.
- `Codex` (`codex.dfy`): the Codex CLI TOML store. Servers live in the `mcp_servers` table;
  `enabled = false` disables a server. A legacy `disabled_mcp_servers` table is migrated in
  on every load. Covers enable, disable, delete, add, `update_disabled`, the typed readers,
  and the key partition and counts.
- `TierPolicy` (`tier.dfy`) and `Clients` (`clients.dfy`): tier entitlement (`hasMinimumTier`
  and the features derived from it) and the static client catalogue.
- `Onboarding` (`onboarding.dfy`): the SIGNED_IN decision to request a student upgrade, a
  trial, or nothing.
- `LocalTable` (`local_table.dfy`): the rows and statistics of the local server table, and the
  batch enable, disable and delete handlers as a state machine over the row selection.
- `TemplateLogic`, `SaveConfig`, `TemplateDialog` (`template_logic.dfy`, `save_config.dfy`,
  `template_dialog.dfy`): the add-server dialog. It finds server configs in README JSON,
  takes the first pasted server, re-reads JSON on blur, edits fields, and saves to a client
  with an upsert into the `myservers` list.
- `ServersApi` (`servers_api.dfy`): the catalogue API client's query string, its result
  defaults, and the statistics endpoints.
- `UpdateCheck` (`update_check.dfy`): the daily release check and its local-storage cache.
- `SettingsStore` (`settings_store.dfy`): the exclude-folder list and the settings setters.
- `Dashboard` (`dashboard.dfy`): trial days remaining and the two trial banners.
- `DxtPage` (`dxt_page.dfy`): `normalizeManifest` and the choice between listing and searching.

`Wrappers`, `Text` and `Json` are shared helpers. They provide `Option`/`Result`, the
JavaScript string methods the code uses (`trim`, `split`, `toUpperCase`, `parseInt`, ...), and a
JSON value whose objects are ordered member lists, so that `{...a, ...b}`, `Object.keys` and
`Object.entries` keep JavaScript's insertion order.

Conventions:
- I/O outcomes are parameters: backend calls, file reads, the release fetch, local storage
  and the clipboard.
- The clock is a parameter: an integer number of milliseconds.
- An operation's effects are returned as a value: the written document, the list of calls
  made, or the next state.
- Rust `serde_json` and `toml_edit` tables are Dafny maps.

Consequences of the code that are easy to miss, each proved below:
- Batch enable and batch disable (`LocalTable.tsx:104-124`) await each call with no `try`, so
  they stop at the first rejected call and keep the selection.
- Merge-mode sync (`mcp_sync.rs:41-80`) only inserts names the destination lacks, so it never
  replaces a destination entry. Between two per-server-disabled clients (`mcp_sync.rs:85-155`)
  every disabled server ends in `__disabled`.
- Cloud sync (`useTier.ts:64`) is the PRO check alone, so a FREE student without a trial
  cannot use it.
- `sort` and `direction` (`servers.ts:16-33`) default to non-empty values but go through the
  same filter as every other parameter, so "" drops them.
- `hasMinimumTier` (`useTier.ts:40-45`) tests for a missing tier before the trial, so a user
  with no tier gets only FREE, even during a trial.

## Model

| member | source | states |
|---|---|---|
| McpSync.Sync | tauri-app/src-tauri/src/mcp_sync.rs:7-190 | Of the sync's failures only the source read error is modelled, and the model fails exactly then. A per-server-disabled destination always ends with a `__disabled` object. Every top-level key other than the two tables is the destination's own. |
| McpSync.OverrideReplacesTables | tauri-app/src-tauri/src/mcp_sync.rs:25-30 | Override between plain clients makes the destination's two tables the source's, an absent source table counting as `{}`, and keeps the other keys. |
| McpSync.MergeKeepsDestination | tauri-app/src-tauri/src/mcp_sync.rs:32-80 | Merge mode keeps every destination entry of either table with its value. Every entry it adds is the source's entry of that name. |
| McpSync.MergeKeepsTablesDisjoint | tauri-app/src-tauri/src/mcp_sync.rs:53-76 | If no name was in both destination tables before a merge, none is after. |
| McpSync.AddMissingStable | tauri-app/src-tauri/src/mcp_sync.rs:41-59 | Repeating an additive pass with the same source adds nothing, even against a larger other table. |
| McpSync.MergeIdempotent | tauri-app/src-tauri/src/mcp_sync.rs:41-80 | A second merge from an unchanged source leaves the destination unchanged. |
| McpSync.MergePrefersActiveSource | tauri-app/src-tauri/src/mcp_sync.rs:41-80 | A name in both source tables and unknown to the destination lands only in `mcpServers`, with the active entry. |
| McpSync.PerServerDestinationFlagsDisabled | tauri-app/src-tauri/src/mcp_sync.rs:85-103 | For a cline/roo_code destination, `__disabled` ends empty. Each entry disabled before the pass is in `mcpServers` with `"disabled": true`. Other active entries are unchanged. |
| McpSync.CherryDestinationFlagsDisabled | tauri-app/src-tauri/src/mcp_sync.rs:105-123 | For a cherrystudio destination, `__disabled` ends empty. Each entry disabled before the pass is in `mcpServers` with `"isActive": false`. Other active entries are unchanged. |
| McpSync.UnflagMoves | tauri-app/src-tauri/src/mcp_sync.rs:125-187 | The source pass moves exactly the entries whose flag field holds the flag value into `__disabled`, with that field removed, and keeps the rest in `mcpServers`. |
| McpSync.PerServerSourceMovesFlagged | tauri-app/src-tauri/src/mcp_sync.rs:125-155 | For a cline/roo_code source, entries whose `disabled` is exactly `true` move to `__disabled` without the field. |
| McpSync.CherrySourceMovesInactive | tauri-app/src-tauri/src/mcp_sync.rs:157-187 | For a cherrystudio source, only entries whose `isActive` is exactly `false` move. |
| McpSync.PerServerToPerServerUsesDisabledTable | tauri-app/src-tauri/src/mcp_sync.rs:85-155 | Between two cline/roo_code clients the destination pass runs first. So every disabled server ends in `__disabled`, and no `mcpServers` entry keeps `"disabled": true`. |
| McpSync.FlaggedEntriesLostWithoutDisabledTable | tauri-app/src-tauri/src/mcp_sync.rs:137-154 | When `__disabled` is not an object, a flagged entry is removed from `mcpServers` and written to neither table. |
| McpSync.FlaggedSelection | tauri-app/src-tauri/src/mcp_sync.rs:128-162 | The selections are `get("disabled").and_then(as_bool).unwrap_or(false)` and `get("isActive").and_then(as_bool) == Some(false)`, and they only name entries of the table. A missing or non-boolean flag never moves an entry. |
| Codex.SetEnabledField | tauri-app/src-tauri/src/codex.rs:228-234 | After the update the entry's enabled state is the requested one. Only the `enabled` key may change. Enabling removes that key. |
| Codex.SetEnabledOnItem | tauri-app/src-tauri/src/codex.rs:236-243 | Succeeds exactly on a sub-table, whose enabled state then is the requested one. |
| Codex.EnsureServers | tauri-app/src-tauri/src/codex.rs:150-157 | Fails exactly when `mcp_servers` exists and is not a table; otherwise yields its entries, or none when absent. |
| Codex.SetEnabledFieldRoundTrip | tauri-app/src-tauri/src/codex.rs:228-234 | Disable-then-enable restores fields that had no `enabled` key. Each direction is idempotent. |
| Codex.SetEnabledMissIsNoop | tauri-app/src-tauri/src/codex.rs:342-378 | `enable` or `disable` of a name that is not an `mcp_servers` entry returns Ok without writing. |
| Codex.SetEnabledChangesOnlyFlag | tauri-app/src-tauri/src/codex.rs:342-378 | A hit saves the loaded document with only that entry's `enabled` state changed. |
| Codex.DisableThenEnableRestores | tauri-app/src-tauri/src/codex.rs:342-378 | Disabling an entry with no `enabled` key and then enabling it saves the loaded document unchanged. Disabling twice equals disabling once. |
| Codex.DeleteRemovesExactlyName | tauri-app/src-tauri/src/codex.rs:309-328 | Delete fails with "not found" for an absent name, and otherwise removes exactly that key. |
| Codex.MigrateMovesLegacy | tauri-app/src-tauri/src/codex.rs:245-265 | Migration drops the legacy table and moves each legacy entry into `mcp_servers`, marked disabled and replacing a same-named entry. Other entries stay. It fails when `mcp_servers` is not a table. |
| Codex.LoadedHasNoLegacyTable | tauri-app/src-tauri/src/codex.rs:102-115 | A loaded document never keeps a `disabled_mcp_servers` table. |
| Codex.DeleteFindsLegacyName | tauri-app/src-tauri/src/codex.rs:309-328 | A name found only in the legacy table can be deleted, since loading migrates it first. |
| Codex.InlineLegacyEntryComesBackEnabled | tauri-app/src-tauri/src/codex.rs:236-265 | A legacy entry written as an inline table is migrated unmarked and counts as enabled afterwards. |
| Codex.ParseServerToItem | tauri-app/src-tauri/src/codex.rs:165-176 | Deserialising a serialised configuration gives it back. `server_item_enabled` of the serialised entry is the configuration's `enabled`. |
| Codex.TypedReaderAgreesOnTables | tauri-app/src-tauri/src/codex.rs:212-219 | On a sub-table entry, the typed reader's `enabled` agrees with `server_item_enabled`. |
| Codex.InlineEntryDisagreement | tauri-app/src-tauri/src/codex.rs:212-243 | On an inline-table entry with `enabled = false` they disagree: the typed reader lists it as disabled, `server_item_enabled` says enabled, and `enable` leaves it unchanged. |
| Codex.AddStoresEntry | tauri-app/src-tauri/src/codex.rs:299-307 | `add_mcp_server` stores the serialised entry under its name, replacing any previous one, and leaves other entries alone. |
| Codex.UpdateDisabledStoresDisabled | tauri-app/src-tauri/src/codex.rs:380-398 | `update_disabled` stores the entry disabled, whatever its own flag says. |
| Codex.ReadersSeeAddedEntry | tauri-app/src-tauri/src/codex.rs:51-77 | After an add, `read_mcp_servers` lists the entry exactly when it is enabled, and `list_disabled` exactly when it is not. |
| Codex.ReadMcpServers | tauri-app/src-tauri/src/codex.rs:51-77 | A missing file reads as no servers and an unreadable one gives its error. A parse fails exactly when the configuration does not parse. Otherwise the result is exactly the enabled configured servers, each with its configuration. |
| Codex.ListDisabled | tauri-app/src-tauri/src/codex.rs:331-340 | A missing file lists nothing and an unreadable one gives its error. It fails exactly when the configuration does not parse. Otherwise it lists the disabled servers of `mcp_servers` plus the legacy table; the legacy entry wins a clash, and nothing else is listed. |
| Codex.PartitionServerKeys | tauri-app/src-tauri/src/codex.rs:195-210 | The active and disabled lists hold exactly the enabled and the disabled entry names. Their lengths add up to the number of entries. |
| Codex.DocCounts | tauri-app/src-tauri/src/codex.rs:178-193 | The two counts are the numbers of enabled and of disabled entries, and add up to the number of entries. |
| TierPolicy.LevelOfTierName | tauri-app/src/hooks/useTier.ts:9-15 | `TIER_LEVELS` gives each tier's name its ordinal. |
| TierPolicy.NoTierGrantsOnlyFree | tauri-app/src/hooks/useTier.ts:41 | With no tier, a tier is granted exactly when it is FREE, even during a trial. |
| TierPolicy.TrialGrantsEveryTier | tauri-app/src/hooks/useTier.ts:28-31 | With a tier and an active trial, every tier is granted. |
| TierPolicy.StudentCeiling | tauri-app/src/hooks/useTier.ts:32-51 | Without a trial, a student with a tier is granted every tier up to LIFETIME_PRO. PRO and TEAM fall back to the raw level. |
| TierPolicy.RawLevelDecides | tauri-app/src/hooks/useTier.ts:27-55 | Otherwise a tier is granted exactly when the upper-cased tier's level, 0 when unknown, reaches the required level. |
| TierPolicy.HasMinimumTierMonotone | tauri-app/src/hooks/useTier.ts:40-61 | Whoever is granted a tier is granted every lower tier. |
| TierPolicy.CloudSyncRules | tauri-app/src/hooks/useTier.ts:64 | Cloud sync is the PRO check. It is denied to a FREE student without a trial and allowed to anyone with a tier during a trial. |
| TierPolicy.TeamFeaturesIgnoreTrialAndStudent | tauri-app/src/hooks/useTier.ts:67 | Team features depend only on the raw tier; a TEAM user is also granted the TEAM tier. |
| TierPolicy.LifetimeImpliesPaidFeatures | tauri-app/src/hooks/useTier.ts:34-37 | Being granted LIFETIME implies access to paid features. |
| TierPolicy.PaidFeaturesWithoutLifetime | tauri-app/src/hooks/useTier.ts:34-55 | The converse fails: an unrecognised tier name opens paid features but is granted only FREE. |
| TierPolicy.StudentAccessesEveryClient | tauri-app/src/hooks/useTier.ts:47-51 | A student with a tier can access every catalogue client. |
| Clients.ClientOptions | tauri-app/src/constants/clients.ts:86-89 | The options are the catalogue in order, then one "custom" entry. No two options share a value, and "custom" is the only option without a tier requirement. |
| Clients.CatalogueValuesDistinct | tauri-app/src/constants/clients.ts:12-83 | Catalogue values are pairwise distinct, and none is "custom". |
| Clients.CatalogueValues | tauri-app/src/constants/clients.ts:12-83 | The catalogue's client values are exactly the ten clients claude, windsurf, cursor, cline, roo_code, vscode, plux, codex, claude_code and mcphub. |
| Clients.CatalogueRequirements | tauri-app/src/constants/clients.ts:12-83 | claude, windsurf and mcphub need FREE; cursor, cline, roo_code, vscode and plux need LIFETIME; codex and claude_code need LIFETIME_PRO. |
| Clients.NoClientNeedsCloudTiers | tauri-app/src/constants/clients.ts:12-83 | No catalogue client requires PRO or TEAM. |
| Onboarding.UpgradeRequestedIff | tauri-app/src/pages/AuthPage.tsx:30-42 | A student upgrade is requested exactly for a lower-cased ".edu" email, an upper-cased FREE tier, and a non-student. |
| Onboarding.TrialOnlyForFreeWithoutTrial | tauri-app/src/pages/AuthPage.tsx:30-59 | A trial is requested only for a FREE user without a trial. A missing tier never triggers one. |
| Onboarding.TrialIsUpgradeFallback | tauri-app/src/pages/AuthPage.tsx:39-53 | For a .edu FREE non-student, the trial is requested only after the upgrade or its refresh fails. |
| Onboarding.StudentsAndPaidUsersUntouched | tauri-app/src/pages/AuthPage.tsx:39-59 | Students and paid users cause no call. |
| Onboarding.AtMostOneRequestEach | tauri-app/src/pages/AuthPage.tsx:39-62 | At most one upgrade and at most one trial request per sign-in. |
| Onboarding.ToastsFollowResolvedRequests | tauri-app/src/pages/AuthPage.tsx:39-59 | The student toast is shown exactly after a resolved upgrade and the trial toast exactly after a resolved trial request; no other toast is shown. |
| LocalTable.ServersDataOrder | src/components/manage/LocalTable.tsx:47-62 | All active rows come before all disabled rows, each at its entry's position. |
| LocalTable.RowNameIsKeyUnlessOverridden | src/components/manage/LocalTable.tsx:50-53 | A row's name is its key unless the config has its own `name`, which wins. The other columns are the config's. |
| LocalTable.PersonalStats | src/components/manage/LocalTable.tsx:64-68 | `active` is the number of active entries and `disabled` the number of disabled ones. Total equals active plus disabled, which equals the number of rows. |
| LocalTable.SelectedNames | src/components/manage/LocalTable.tsx:93-96 | Defined exactly when every selected index is a row. Then it gives each selected row's name, in selection order. |
| LocalTable.IssueToggles | src/components/manage/LocalTable.tsx:109-111 | Calls go out one per name in order. Every call before the last resolved. If the loop stopped early, its last call rejected. "All resolved" holds exactly when every call resolves. |
| LocalTable.BatchToggle | src/components/manage/LocalTable.tsx:104-124 | With every index valid, one call per selected row's name goes out in selection order, and at least one when the selection is not empty. Every call before the last resolved, and if calls stopped early, the last one rejected. The selection is cleared exactly when every call resolved (or it was empty) and is otherwise kept. An index past the end makes no call. |
| LocalTable.BatchDeleteHandler | src/components/manage/LocalTable.tsx:91-102 | One call with every selected name. The selection is cleared exactly when that call resolves and is otherwise kept. |
| LocalTable.CloudSyncButton | src/components/manage/LocalTable.tsx:153-160 | The dialog opens exactly when a non-empty key exists; otherwise it navigates to `/settings`. |
| TemplateLogic.Scan | tauri-app/src/components/server/dialog/useServerTemplateLogic.ts:143-152 | Every result is a server config found among the members under its own key; there are no more results than members. |
| TemplateLogic.ScanComplete | tauri-app/src/components/server/dialog/useServerTemplateLogic.ts:143-152 | Every member that is a server config is found, under its own key. |
| TemplateLogic.ScanAppend | tauri-app/src/components/server/dialog/useServerTemplateLogic.ts:143-152 | The scan splits over concatenation of members. |
| TemplateLogic.ScanSingle | tauri-app/src/components/server/dialog/useServerTemplateLogic.ts:144-151 | A single member is kept, tagged with its key, exactly when it is an object with `command` or `url`. |
| TemplateLogic.FindCommandOrUrl | tauri-app/src/components/server/dialog/useServerTemplateLogic.ts:133-162 | Non-object input yields nothing. Under an `mcpServers` object or array the results are exactly its qualifying members, in member order (the scan). Otherwise the root itself, named "", when it qualifies. |
| TemplateLogic.ServersObjectShadowsRoot | tauri-app/src/components/server/dialog/useServerTemplateLogic.ts:137-160 | A root-level `command`/`url` is ignored once `mcpServers` is an object or an array; array elements are found under their index keys. |
| TemplateLogic.FoundInBlocksAppend | tauri-app/src/components/server/dialog/useServerTemplateLogic.ts:168-171 | The results over blocks are the per-block results concatenated in block order. |
| TemplateLogic.LoadFromGithub | tauri-app/src/components/server/dialog/useServerTemplateLogic.ts:165-184 | Non-empty blocks replace the found list; otherwise it is kept and an error is reported. Success is reported exactly when something was found. |
| TemplateLogic.CommonParse | tauri-app/src/components/server/dialog/useServerTemplateLogic.ts:61-71 | With a truthy `mcpServers`, the first key becomes the name and its value the config; this throws after those updates when the value is nullish, leaving the env values. A truthy `mcpServers` with no keys sets both to undefined and throws. Without one, the whole value is the config. A nullish input throws before any update. |
| TemplateLogic.EmptyServersClearsConfig | tauri-app/src/components/server/dialog/useServerTemplateLogic.ts:62-67 | An empty `mcpServers` object sets the config to undefined and then throws. |
| TemplateLogic.JsonBlur | tauri-app/src/components/server/dialog/useServerTemplateLogic.ts:92-99 | Valid JSON replaces only the config. Invalid JSON changes nothing and reports "Invalid JSON format". |
| SaveConfig.FindIndexSpec | src/components/server/hooks/useSaveServerConfig.ts:85-87 | The index found is the first entry named like the server, with every earlier entry non-nullish. "Not found" and "throws" hold exactly in their cases. |
| SaveConfig.UpsertReplacesOrAppends | src/components/server/hooks/useSaveServerConfig.ts:76-95 | The first same-named entry is replaced in place, or the new entry is appended; nothing else changes. The update fails exactly when the scan meets a nullish entry first. |
| SaveConfig.UpsertTwiceReplaces | src/components/server/hooks/useSaveServerConfig.ts:85-95 | Upserting a name twice gives the same list as upserting it once with the second config, so no duplicate entry is stored. |
| SaveConfig.BlockedSaveWritesNothing | src/components/server/hooks/useSaveServerConfig.ts:54-61 | The "custom" client without a path, or no selected server, makes no write and only one notice. |
| SaveConfig.DialogClosesIffPrimarySucceeds | src/components/server/hooks/useSaveServerConfig.ts:63-108 | The dialog closes, and the draft is removed, exactly when the primary write succeeded, even if the `myservers` update fails. |
| SaveConfig.PrimaryFailureStopsSave | src/components/server/hooks/useSaveServerConfig.ts:32-43 | A failed primary write makes no mirror write, download count or `myservers` update. |
| SaveConfig.FirstSaveStoresOneEntry | src/components/server/hooks/useSaveServerConfig.ts:74-96 | With nothing stored, a successful save stores a list holding just the new entry. |
| TemplateDialog.Tokens | src/components/server/ServerTemplateDialog.tsx:77 | No token is empty or contains a space. |
| TemplateDialog.TokensOfJoin | src/components/server/ServerTemplateDialog.tsx:77 | Every list of non-empty, space-free tokens is read back unchanged from its space-joined text. |
| TemplateDialog.TokensRoundTrip | src/components/server/ServerTemplateDialog.tsx:77 | Re-tokenising the space-joined tokens gives the same tokens. |
| TemplateDialog.ArgsChangeSetsArgs | src/components/server/ServerTemplateDialog.tsx:76-81 | After an args edit, `args` is the token list and no other field differs. Equal tokens keep the same config. |
| TemplateDialog.CommandAndUrlEditsAreLocal | src/components/server/ServerTemplateDialog.tsx:83-88 | A command or url edit sets that field and no other. |
| TemplateDialog.NestedEditSetsOneKey | src/components/server/ServerTemplateDialog.tsx:90-96 | A nested edit sets one key of the object and keeps its other keys and every other field. |
| TemplateDialog.EnvAndHeaderEditsAreLocal | src/components/server/ServerTemplateDialog.tsx:90-96 | An env edit leaves `headers` alone, and a header edit leaves `env` alone. |
| ServersApi.BuildQueryParams | src/lib/api/servers.ts:4-14 | No value sent is empty. |
| ServersApi.BuildQueryParamsAppend | src/lib/api/servers.ts:8-10 | The filter splits over concatenation, so order is kept. |
| ServersApi.BuildQueryParamsSingle | src/lib/api/servers.ts:8-10 | One parameter is kept unchanged exactly when its value is neither null, undefined nor "". |
| ServersApi.HasParamIff | src/lib/api/servers.ts:4-14 | A key is sent exactly when some parameter with that key is set and non-empty. |
| ServersApi.FetchParamsPresence | src/lib/api/servers.ts:16-33 | `page` and `page_size` are always sent, first. Each other parameter is sent exactly when set and non-empty. |
| ServersApi.DefaultFetchParamsValue | src/lib/api/servers.ts:16-33 | A call with every default sends `page=1`, `page_size=10`, `sort=github_stars`, `direction=desc`, in that order, and nothing else. |
| ServersApi.ListingResult | src/lib/api/servers.ts:39-64 | A failed request gives the empty listing and the notice "Failed to fetch servers: " plus the message. A success carries no notice. |
| ServersApi.ListingResultField | src/lib/api/servers.ts:45-50 | `servers`, `hasNext` and `total` take the body's value when it has the key, else the default. Other body fields pass unchanged, and there are no others. |
| ServersApi.PresentNullOverridesDefault | src/lib/api/servers.ts:45-50 | A body with `servers: null` keeps null: the default applies only to a missing key. |
| ServersApi.StatsEndpoint | src/lib/api/servers.ts:67-74 | The URL starts with `/servers/` and ends with the statistic's path, and the segment between them reads back as the server id. |
| ServersApi.StatsEndpointInjective | src/lib/api/servers.ts:67-74 | Two servers share an endpoint for the same statistic only when they are the same server. |
| ServersApi.ViewsAndDownloadsDiffer | src/lib/api/servers.ts:76-82 | Views and downloads post to different endpoints, ending in `/views` and `/downloads`. |
| UpdateCheck.CheckForUpdate | tauri-app/src/lib/update.ts:28-67 | An unreadable version gives null and keeps the cache. A fetch happens exactly on a cache miss. Without a fetch, or when it fails, nothing is reported and the cache is kept. A report always says "update" with the releases URL. |
| UpdateCheck.UpdateReportedIff | tauri-app/src/lib/update.ts:47-61 | After a fetch, an update is reported exactly when the tag is not "v" plus the version. The notes default to "No release notes available.". The cache holds the version, the tag (or "undefined") and the clock read when the cache was written. |
| UpdateCheck.FetchThenHit | tauri-app/src/lib/update.ts:13-17 | Within a day of the time the cache was written, the next check makes no request. |
| UpdateCheck.ExpiredCacheFetches | tauri-app/src/lib/update.ts:33-46 | A day or more after the last fetch, the check fetches again. |
| UpdateCheck.MissingTagReportsUpdate | tauri-app/src/lib/update.ts:51-61 | A response without a tag is reported as an update, and "undefined" is cached as the latest version. |
| Text.ParseIntRoundTrip | tauri-app/src/lib/update.ts:16 | The stored time, written with `toString`, is read back by `parseInt` as the same integer. |
| SettingsStore.AddExcludeFolder | tauri-app/src/stores/settings/SettingsStore.ts:42-45 | The folder is appended after the unchanged list, without de-duplication. Other settings stay. |
| SettingsStore.RemoveExcludeFolder | tauri-app/src/stores/settings/SettingsStore.ts:46-49 | The folder no longer occurs, every other folder stays, and other settings are unchanged. |
| SettingsStore.Without | tauri-app/src/stores/settings/SettingsStore.ts:48 | The filtered list holds exactly the other folders. |
| SettingsStore.WithoutAppend | tauri-app/src/stores/settings/SettingsStore.ts:48 | The filter splits over concatenation, so the remaining folders keep their order. |
| SettingsStore.WithoutAbsent | tauri-app/src/stores/settings/SettingsStore.ts:46-49 | Removing an unlisted folder changes nothing. |
| SettingsStore.AddThenRemoveRestores | tauri-app/src/stores/settings/SettingsStore.ts:42-49 | Adding an unlisted folder and then removing it restores the settings. |
| SettingsStore.RemoveIdempotent | tauri-app/src/stores/settings/SettingsStore.ts:46-49 | Removing twice is removing once. |
| SettingsStore.SettersAreIndependent | tauri-app/src/stores/settings/SettingsStore.ts:50-57 | Each setter sets its own field, and setters of different fields commute. |
| SettingsStore.DefaultsShape | tauri-app/src/stores/settings/SettingsStore.ts:19-41 | The defaults exclude eleven distinct folders, among them `.git` and `node_modules`. |
| Dashboard.CeilDays | tauri-app/src/pages/Dashboard.tsx:46 | The result is the least whole number of days covering the difference. |
| Dashboard.TrialDaysRemaining | tauri-app/src/pages/Dashboard.tsx:41-48 | 0 without an end date. Positive exactly when the end lies in the future, and then the rounded-up number of days. |
| Dashboard.DaysNonIncreasing | tauri-app/src/pages/Dashboard.tsx:41-50 | The days shown never increase as time passes. |
| Dashboard.BannersExclusive | tauri-app/src/pages/Dashboard.tsx:50-71 | The trial and expired banners never show together. The trial banner shows exactly during an active trial with a future end. |
| Dashboard.LastDayShowsOne | tauri-app/src/pages/Dashboard.tsx:41-48 | A trial ending within the coming day shows one day; one that has ended shows none. |
| DxtPage.NullsToUndefined | tauri-app/src/pages/DxtPage.tsx:16-18 | Keys and order stay, no null value is left, each null becomes undefined, and every other member is unchanged. |
| DxtPage.NormalizeShape | tauri-app/src/pages/DxtPage.tsx:14-20 | `id` comes first. The keys are the original keys plus `id`. Values are unchanged except null outside `id` becomes undefined. |
| DxtPage.NormalizedMembers | tauri-app/src/pages/DxtPage.tsx:15-19 | The normalised manifest is `id` followed by the normalised rest. |
| DxtPage.NormalizeIdempotent | tauri-app/src/pages/DxtPage.tsx:14-20 | Normalising twice is normalising once. |
| DxtPage.HandleSearch | tauri-app/src/pages/DxtPage.tsx:54-76 | Blank text lists every manifest. Other text is searched for as typed, untrimmed. |
| Text.TrimEmptyIffBlank | tauri-app/src/pages/DxtPage.tsx:55 | Trimming leaves nothing exactly when every character is whitespace. |

## Left out

- File and process I/O: reading and writing the JSON and TOML files, the temporary-file
  rename, the process-wide lock and async scheduling. Each operation maps the file's state
  (missing, unreadable, parsed) to the document it would write.
- TOML formatting: key order, `inline_child_table`, and how `toml_edit` lays out tables.
  Codex entries are maps of fields.
- Which client names are cline/roo_code or cherrystudio. That classification is not part of
  this model, so the client kind is a parameter of `McpSync.Sync`.
- The defaults of `CodexConfig`. They live in `config.rs`, which is not part of this model. An
  absent table is read as empty.
- The backend, Supabase auth, the GitHub fetch, Tauri `invoke`, the clipboard, local storage,
  toasts and navigation. Their outcomes are inputs, and toasts and navigation are returned
  as values.
- `Date`: times are integers of milliseconds. An invalid date (NaN) in the dashboard or
  the tier policy is not modelled.
- JavaScript's ordering of integer-like object keys first. Objects keep insertion order.
- URL encoding of the query string. Parameters are (key, value) pairs.
- The schema validation of manifests in `DxtPage.tsx` and the fetching of manifests. Only
  the choice between listing and searching is modelled.
- `handlePasteJson` and `handleSubmitTeamLocal` in the template logic. They wrap `commonParse`
  and an `add_mcp_server` call with clipboard and navigation effects.
- React state plumbing, effects, memoisation and the zustand persistence middleware.
- The catalogue's display fields (`url`, `desc`). Only `value`, `label` and `requiredTier`
  are modelled.
- Clients.CatalogueRequirements: states which tier each client needs, not its label. The
  labels are stated only by Clients.ClientOptions, which copies them from the catalogue.
- ServersApi.BuildQueryParams: its own contract states only that no empty value is sent. The
  full filter is stated by ServersApi.BuildQueryParamsAppend, ServersApi.BuildQueryParamsSingle
  and ServersApi.HasParamIff.
- TemplateDialog.Tokens: its own contract states the shape of each token. That the tokens are
  the space-separated words of the text is stated by TemplateDialog.TokensOfJoin.
- TemplateLogic.Scan: its own contract states that every result is a qualifying member.
  Completeness is stated by TemplateLogic.ScanComplete, and order by TemplateLogic.ScanAppend
  and TemplateLogic.ScanSingle.
- McpSync.Sync: its own contract states error, shape and untouched keys. The table contents
  are stated by the McpSync lemmas per mode and client kind. The only error modelled is the
  source read error. Write failures of `write_json_file` are not modelled (file I/O). The
  panics of `sync_mcp_config` are not modelled either: indexing a destination file that is not
  an object, and flagging an entry that is not an object.
- McpSync entries are field maps, so an `mcpServers` or `__disabled` entry that is not a JSON
  object cannot be expressed. In the code the source passes never select such an entry,
  because `get` on it yields nothing, so the `is_object()` guards (`mcp_sync.rs:146`, `178`)
  always hold. In a destination pass a `null` entry of `__disabled` becomes
  `{"disabled": true}` or `{"isActive": false}` (`mcp_sync.rs:90-91`, `110-111`); any other
  non-object entry makes the code panic. The destination file is taken to be an object.
- Text.Upper and Text.Lower map ASCII letters only. `toUpperCase` and `toLowerCase` map every
  Unicode letter, some of them to ASCII: `"lıfetıme".toUpperCase()` is "LIFETIME", while the
  model gives that tier name level 0. Only names that are ASCII are decided as the code does.
- Json numbers are integers. Fractions, exponents and NaN of JSON and JavaScript numbers are
  not modelled; the numbers used here are page sizes, ids, counts and times.

=== FILE: clients.dfy ===
/** The static catalogue of supported AI clients and the tier each one needs. */
module Clients {
  import opened Wrappers

  /** `ClientTier`, in ascending order of entitlement. */
  datatype Tier = Free | Lifetime | LifetimePro | Pro | Team

  /** The ordinal `TIER_LEVELS` gives the tier's name. */
  function Level(t: Tier): nat {
    match t
    case Free => 0
    case Lifetime => 1
    case LifetimePro => 2
    case Pro => 3
    case Team => 4
  }

  /** The tier's name as the backend and `TIER_LEVELS` spell it. */
  function TierName(t: Tier): string {
    match t
    case Free => "FREE"
    case Lifetime => "LIFETIME"
    case LifetimePro => "LIFETIME_PRO"
    case Pro => "PRO"
    case Team => "TEAM"
  }

  /** One catalogue entry (its link and description are display text and are not modelled). */
  datatype ClientInfo = ClientInfo(value: string, displayName: string, requiredTier: Tier)

  /** An entry of `clientOptions`: a catalogue entry or the tier-free "custom" entry. */
  datatype ClientOption = ClientOption(value: string, displayName: string, requiredTier: Option<Tier>)

  const Catalogue: seq<ClientInfo> := [
    ClientInfo("claude", "Claude Desktop", Free),
    ClientInfo("windsurf", "Windsurf", Free),
    ClientInfo("cursor", "Cursor", Lifetime),
    ClientInfo("cline", "Cline (In VSCode)", Lifetime),
    ClientInfo("roo_code", "Roo Code (In VSCode)", Lifetime),
    ClientInfo("vscode", "VSCode", Lifetime),
    ClientInfo("plux", "Plux", Lifetime),
    ClientInfo("codex", "Codex", LifetimePro),
    ClientInfo("claude_code", "Claude Code", LifetimePro),
    ClientInfo("mcphub", "mcphub.nvim", Free)
  ]

  const CustomValue := "custom"

  function AsOption(c: ClientInfo): ClientOption {
    ClientOption(c.value, c.displayName, Some(c.requiredTier))
  }

  /** `clientOptions`: the catalogue in order, then "custom" with no tier requirement. */
  function ClientOptions(): (r: seq<ClientOption>)
    ensures |r| == |Catalogue| + 1
    ensures forall i :: 0 <= i < |Catalogue| ==> r[i] == AsOption(Catalogue[i])
    ensures r[|Catalogue|] == ClientOption(CustomValue, "Custom", None)
    ensures forall i, j :: 0 <= i < j < |r| ==> r[i].value != r[j].value
    ensures forall i :: 0 <= i < |r| ==> (r[i].requiredTier.None? <==> r[i].value == CustomValue)
  {
    CatalogueValuesDistinct();
    seq(|Catalogue|, i requires 0 <= i < |Catalogue| => AsOption(Catalogue[i])) + [ClientOption(CustomValue, "Custom", None)]
  }

  /** No two catalogue entries share a `value`, and "custom" is not one of them. */
  lemma CatalogueValuesDistinct()
    ensures forall i, j :: 0 <= i < j < |Catalogue| ==> Catalogue[i].value != Catalogue[j].value
    ensures forall i :: 0 <= i < |Catalogue| ==> Catalogue[i].value != CustomValue
  {
  }

  /** The catalogue's values: the ten clients mcp-linker can configure. */
  lemma CatalogueValues()
    ensures (set i | 0 <= i < |Catalogue| :: Catalogue[i].value) ==
      {"claude", "windsurf", "cursor", "cline", "roo_code", "vscode", "plux", "codex", "claude_code", "mcphub"}
  {
    var values := set i | 0 <= i < |Catalogue| :: Catalogue[i].value;
    assert Catalogue[0].value in values && Catalogue[1].value in values && Catalogue[2].value in values;
    assert Catalogue[3].value in values && Catalogue[4].value in values && Catalogue[5].value in values;
    assert Catalogue[6].value in values && Catalogue[7].value in values && Catalogue[8].value in values;
    assert Catalogue[9].value in values;
  }

  /** The tier each catalogue client requires. */
  lemma CatalogueRequirements()
    ensures forall i :: 0 <= i < |Catalogue| ==>
      (Catalogue[i].requiredTier == Free <==> Catalogue[i].value in {"claude", "windsurf", "mcphub"})
    ensures forall i :: 0 <= i < |Catalogue| ==>
      (Catalogue[i].requiredTier == Lifetime <==> Catalogue[i].value in {"cursor", "cline", "roo_code", "vscode", "plux"})
    ensures forall i :: 0 <= i < |Catalogue| ==>
      (Catalogue[i].requiredTier == LifetimePro <==> Catalogue[i].value in {"codex", "claude_code"})
  {
  }

  /** No catalogue entry requires PRO or TEAM. */
  lemma NoClientNeedsCloudTiers()
    ensures forall i :: 0 <= i < |Catalogue| ==> Level(Catalogue[i].requiredTier) <= Level(LifetimePro)
  {
  }
}

=== FILE: codex.dfy ===
/**
 * The Codex CLI configuration store: MCP servers live in one TOML table `mcp_servers`,
 * a server is disabled by `enabled = false` in its own sub-table, and an older layout that kept
 * disabled servers in a separate `disabled_mcp_servers` table is folded in whenever the
 * document is loaded for an edit. Reading the file, writing it through a temporary file and
 * the process-wide lock are not modelled: every operation maps the file's state to the
 * document it saves.
 */
module Codex {
  import opened Wrappers

  datatype TomlValue =
    | Bool(b: bool)
    | Integer(i: int)
    | Str(s: string)
    | Array(items: seq<TomlValue>)
    | InlineTable(entries: map<string, TomlValue>)

  /** An entry of `mcp_servers`: a `[mcp_servers.NAME]` sub-table, or a value such as an inline table. */
  datatype Item = Value(v: TomlValue) | Table(fields: map<string, TomlValue>)

  /** A top-level key: absent, a table of entries, or a value that is not a table. */
  datatype Slot = Absent | Tables(entries: map<string, Item>) | NotTable(v: TomlValue)

  /** The document: `mcp_servers`, the legacy `disabled_mcp_servers`, and every other top-level key. */
  datatype Document = Document(servers: Slot, legacy: Slot, rest: map<string, TomlValue>)

  const EmptyDocument := Document(Absent, Absent, map[])

  /** The config file: missing, unreadable or unparsable (with the message), or parsed. */
  datatype FileState = NoFile | Unreadable(msg: string) | Present(doc: Document)

  /** An edit's result: `Ok` after saving a document, `Ok` without writing, or `Err`. */
  datatype Outcome = Saved(doc: Document) | NotSaved | Failed(msg: string)

  /** The typed server configuration (`McpServerConfig`). */
  datatype ServerConfig =
    | Stdio(command: string, args: seq<string>, env: Option<map<string, string>>, enabled: bool)
    | Http(url: string, enabled: bool)

  datatype CodexConfig = CodexConfig(servers: map<string, ServerConfig>, legacy: map<string, ServerConfig>)

  const EnabledKey := "enabled"

  /** The entries of `mcp_servers` when it is a table, else none. */
  function ServerTable(s: Slot): map<string, Item> {
    if s.Tables? then s.entries else map[]
  }

  /** `server_item_enabled`: only a sub-table whose `enabled` is the boolean `false` counts as disabled. */
  predicate ServerItemEnabled(item: Item) {
    !(item.Table? && EnabledKey in item.fields && item.fields[EnabledKey] == Bool(false))
  }

  /** `set_enabled_field`: enabling removes the key, disabling writes `enabled = false`. */
  function SetEnabledField(fields: map<string, TomlValue>, enabled: bool): (r: map<string, TomlValue>)
    ensures ServerItemEnabled(Table(r)) == enabled
    ensures forall k :: k != EnabledKey ==> (k in r <==> k in fields)
    ensures forall k :: k != EnabledKey && k in fields ==> r[k] == fields[k]
    ensures enabled ==> EnabledKey !in r
  {
    if enabled then fields - {EnabledKey} else fields[EnabledKey := Bool(false)]
  }

  /** `set_enabled_on_item`: only a sub-table can carry the flag. */
  function SetEnabledOnItem(item: Item, enabled: bool): (r: Result<Item>)
    ensures r.Ok? <==> item.Table?
    ensures r.Ok? ==> r.value.Table? && ServerItemEnabled(r.value) == enabled
  {
    if item.Table? then Ok(Table(SetEnabledField(item.fields, enabled)))
    else Err("server config is not a table")
  }

  /** A legacy entry as migration stores it: sub-tables are marked disabled, other items are kept as they are. */
  function MarkDisabled(item: Item): Item {
    if item.Table? then Table(SetEnabledField(item.fields, false)) else item
  }

  /** `ensure_table(doc, "mcp_servers")`: create it when absent, fail when it is not a table. */
  function EnsureServers(doc: Document): (r: Result<map<string, Item>>)
    ensures r.Ok? <==> !doc.servers.NotTable?
    ensures r.Ok? ==> r.value == ServerTable(doc.servers)
  {
    match doc.servers
    case Absent => Ok(map[])
    case Tables(e) => Ok(e)
    case NotTable(_) => Err("mcp_servers is not a table")
  }

  /** `migrate_disabled_table`: legacy entries move into `mcp_servers`, marked disabled, replacing same-named entries. */
  function Migrate(doc: Document): Result<Document> {
    if doc.legacy.Tables? then
      var legacy := doc.legacy.entries;
      match EnsureServers(doc)
      case Err(msg) => Err(msg)
      case Ok(e) =>
        Ok(doc.(servers := Tables(e + map k | k in legacy :: MarkDisabled(legacy[k])), legacy := Absent))
    else Ok(doc)
  }

  /** `load_document`: a missing file is the empty document; the loaded document is migrated. */
  function LoadDocument(file: FileState): Result<Document> {
    match file
    case NoFile => Migrate(EmptyDocument)
    case Unreadable(msg) => Err(msg)
    case Present(doc) => Migrate(doc)
  }

  /** The document with one entry of `mcp_servers` set (the table must already be one). */
  function WithEntry(doc: Document, e: map<string, Item>, name: string, item: Item): Document {
    doc.(servers := Tables(e[name := item]))
  }

  /** `enable` / `disable`: only an existing sub-table entry is changed and saved; anything else is `Ok` without a write. */
  function SetEnabled(file: FileState, name: string, enabled: bool): Outcome {
    match LoadDocument(file)
    case Err(msg) => Failed(msg)
    case Ok(doc) =>
      var e := ServerTable(doc.servers);
      if name in e && e[name].Table? then
        Saved(WithEntry(doc, e, name, Table(SetEnabledField(e[name].fields, enabled))))
      else NotSaved
  }

  function Enable(file: FileState, name: string): Outcome {
    SetEnabled(file, name, true)
  }

  function Disable(file: FileState, name: string): Outcome {
    SetEnabled(file, name, false)
  }

  /** `delete_mcp_server`: removes the entry, or fails when `mcp_servers` has no such key. */
  function Delete(file: FileState, name: string): Outcome {
    match LoadDocument(file)
    case Err(msg) => Failed(msg)
    case Ok(doc) =>
      if doc.servers.Tables? && name in doc.servers.entries then
        Saved(doc.(servers := Tables(doc.servers.entries - {name})))
      else Failed("MCP server '" + name + "' not found")
  }

  /** `server_to_item`: the serialised sub-table; `enabled` is written only when it is `false`. */
  function ServerToItem(c: ServerConfig): Item {
    var base :=
      match c
      case Stdio(command, args, env, _) =>
        var f := map["type" := Str("stdio"), "command" := Str(command), "args" := Array(StrArray(args))];
        if env.Some? then f["env" := InlineTable(map k | k in env.value :: Str(env.value[k]))] else f
      case Http(url, _) => map["type" := Str("http"), "url" := Str(url)];
    Table(if c.enabled then base else base[EnabledKey := Bool(false)])
  }

  function StrArray(xs: seq<string>): (r: seq<TomlValue>)
    ensures |r| == |xs|
  {
    seq(|xs|, i requires 0 <= i < |xs| => Str(xs[i]))
  }

  /** `add_mcp_server`: stores the serialised entry under its name, replacing any entry of that name. */
  function Add(file: FileState, name: string, c: ServerConfig): Outcome {
    match LoadDocument(file)
    case Err(msg) => Failed(msg)
    case Ok(doc) =>
      match EnsureServers(doc)
      case Err(msg) => Failed(msg)
      case Ok(e) => Saved(WithEntry(doc, e, name, ServerToItem(c)))
  }

  /** `update_disabled`: stores the entry under its name, always marked disabled. */
  function UpdateDisabled(file: FileState, name: string, c: ServerConfig): Outcome {
    match LoadDocument(file)
    case Err(msg) => Failed(msg)
    case Ok(doc) =>
      match EnsureServers(doc)
      case Err(msg) => Failed(msg)
      case Ok(e) => Saved(WithEntry(doc, e, name, MarkDisabled(ServerToItem(c))))
  }

  // ----- the typed reader (serde), used by read_mcp_servers and list_disabled -----

  /** The key/value pairs serde sees in an entry: a sub-table or an inline table. */
  function FieldsOf(item: Item): Option<map<string, TomlValue>> {
    match item
    case Table(f) => Some(f)
    case Value(InlineTable(m)) => Some(m)
    case Value(_) => None
  }

  function ParseEnabled(f: map<string, TomlValue>): Option<bool> {
    if EnabledKey !in f then Some(true)
    else if f[EnabledKey].Bool? then Some(f[EnabledKey].b)
    else None
  }

  predicate AllStr(xs: seq<TomlValue>) {
    forall i :: 0 <= i < |xs| ==> xs[i].Str?
  }

  function ParseEnv(f: map<string, TomlValue>): Option<Option<map<string, string>>> {
    if "env" !in f then Some(None)
    else if f["env"].InlineTable? && (forall k :: k in f["env"].entries ==> f["env"].entries[k].Str?) then
      Some(Some(map k | k in f["env"].entries :: f["env"].entries[k].s))
    else None
  }

  /** Deserialising one entry as `McpServerConfig`, tagged by `type`; unknown fields are ignored. */
  function ParseServer(item: Item): Option<ServerConfig> {
    match FieldsOf(item)
    case None => None
    case Some(f) =>
      var enabled := ParseEnabled(f);
      if "type" !in f || enabled.None? then None
      else if f["type"] == Str("stdio") then
        var env := ParseEnv(f);
        if "command" in f && f["command"].Str? && "args" in f && f["args"].Array? && AllStr(f["args"].items) && env.Some? then
          var items := f["args"].items;
          Some(Stdio(f["command"].s, seq(|items|, i requires 0 <= i < |items| => items[i].s), env.value, enabled.value))
        else None
      else if f["type"] == Str("http") then
        if "url" in f && f["url"].Str? then Some(Http(f["url"].s, enabled.value)) else None
      else None
  }

  /** A table as a map of typed configurations; one bad entry fails the whole parse. */
  function ParseEntries(e: map<string, Item>): Result<map<string, ServerConfig>> {
    if forall k :: k in e ==> ParseServer(e[k]).Some? then
      Ok(map k | k in e :: ParseServer(e[k]).value)
    else Err("Failed to parse config file")
  }

  /**
   * One table of `CodexConfig`. An absent table reads as empty; the defaults of `CodexConfig`
   * are defined in `config.rs`, which is not part of this model.
   */
  function ParseSlot(s: Slot): Result<map<string, ServerConfig>> {
    match s
    case Absent => Ok(map[])
    case Tables(e) => ParseEntries(e)
    case NotTable(InlineTable(m)) => ParseEntries(map k | k in m :: Value(m[k]))
    case NotTable(_) => Err("Failed to parse config file")
  }

  function ParseConfig(doc: Document): Result<CodexConfig> {
    match (ParseSlot(doc.servers), ParseSlot(doc.legacy))
    case (Ok(s), Ok(l)) => Ok(CodexConfig(s, l))
    case (Err(m), _) => Err(m)
    case (_, Err(m)) => Err(m)
  }

  /** `read_mcp_servers`: the enabled servers; a missing file gives an empty map. The legacy table is not consulted. */
  function ReadMcpServers(file: FileState): (r: Result<map<string, ServerConfig>>)
    ensures file.NoFile? ==> r == Ok(map[])
    ensures r.Ok? ==> forall k :: k in r.value ==> r.value[k].enabled
    ensures r.Ok? && file.Present? ==>
      ParseConfig(file.doc).Ok? &&
      forall k :: k in ParseConfig(file.doc).value.servers && ParseConfig(file.doc).value.servers[k].enabled ==>
        k in r.value && r.value[k] == ParseConfig(file.doc).value.servers[k]
    ensures r.Ok? && file.Present? ==>
      ParseConfig(file.doc).Ok? &&
      forall k :: k in r.value ==>
        k in ParseConfig(file.doc).value.servers && r.value[k] == ParseConfig(file.doc).value.servers[k]
    ensures file.Unreadable? ==> r == Err(file.msg)
    ensures file.Present? ==> (r.Err? <==> ParseConfig(file.doc).Err?)
  {
    match file
    case NoFile => Ok(map[])
    case Unreadable(msg) => Err(msg)
    case Present(doc) =>
      match ParseConfig(doc)
      case Err(msg) => Err(msg)
      case Ok(c) => Ok(map k | k in c.servers && c.servers[k].enabled :: c.servers[k])
  }

  /** `list_disabled`: the disabled servers of `mcp_servers` plus the legacy table, the legacy entry winning a clash. */
  function ListDisabled(file: FileState): (r: Result<map<string, ServerConfig>>)
    ensures file.NoFile? ==> r == Ok(map[])
    ensures r.Ok? && file.Present? ==> ParseConfig(file.doc).Ok?
    ensures r.Ok? && file.Present? ==>
      var c := ParseConfig(file.doc).value;
      && (forall k :: k in c.legacy ==> k in r.value && r.value[k] == c.legacy[k])
      && (forall k :: k in c.servers && !c.servers[k].enabled && k !in c.legacy ==> k in r.value && r.value[k] == c.servers[k])
      && (forall k :: k in r.value ==> k in c.legacy || (k in c.servers && !c.servers[k].enabled))
    ensures file.Unreadable? ==> r == Err(file.msg)
    ensures file.Present? ==> (r.Err? <==> ParseConfig(file.doc).Err?)
  {
    match file
    case NoFile => Ok(map[])
    case Unreadable(msg) => Err(msg)
    case Present(doc) =>
      match ParseConfig(doc)
      case Err(msg) => Err(msg)
      case Ok(c) => Ok((map k | k in c.servers && !c.servers[k].enabled :: c.servers[k]) + c.legacy)
  }

  // ----- key partition and counts -----

  ghost function ActiveNames(e: map<string, Item>): set<string> {
    set k | k in e && ServerItemEnabled(e[k])
  }

  /** `partition_server_keys`: the entry names split by `server_item_enabled`, each listed once. */
  method PartitionServerKeys(doc: Document) returns (active: seq<string>, disabled: seq<string>)
    ensures var e := ServerTable(doc.servers);
      && (forall k :: k in active <==> k in e && ServerItemEnabled(e[k]))
      && (forall k :: k in disabled <==> k in e && !ServerItemEnabled(e[k]))
      && |active| + |disabled| == |e|
  {
    var e := ServerTable(doc.servers);
    active, disabled := [], [];
    var remaining := e.Keys;
    while remaining != {}
      invariant remaining <= e.Keys
      invariant forall k :: k in active <==> k in e && k !in remaining && ServerItemEnabled(e[k])
      invariant forall k :: k in disabled <==> k in e && k !in remaining && !ServerItemEnabled(e[k])
      invariant |active| + |disabled| + |remaining| == |e|
      decreases |remaining|
    {
      var k :| k in remaining;
      if ServerItemEnabled(e[k]) {
        active := active + [k];
      } else {
        disabled := disabled + [k];
      }
      remaining := remaining - {k};
    }
  }

  /** `doc_counts`: the number of enabled and of disabled entries, which together count every entry. */
  method DocCounts(doc: Document) returns (active: nat, disabled: nat)
    ensures var e := ServerTable(doc.servers);
      active == |ActiveNames(e)| && active + disabled == |e|
  {
    var e := ServerTable(doc.servers);
    active, disabled := 0, 0;
    var remaining := e.Keys;
    ghost var seen: set<string> := {};
    while remaining != {}
      invariant remaining <= e.Keys && seen == e.Keys - remaining
      invariant active == |set k | k in seen && ServerItemEnabled(e[k])|
      invariant active + disabled + |remaining| == |e|
      decreases |remaining|
    {
      var k :| k in remaining;
      ghost var before := set j | j in seen && ServerItemEnabled(e[j]);
      if ServerItemEnabled(e[k]) {
        active := active + 1;
        assert (set j | j in seen + {k} && ServerItemEnabled(e[j])) == before + {k};
      } else {
        disabled := disabled + 1;
        assert (set j | j in seen + {k} && ServerItemEnabled(e[j])) == before;
      }
      remaining := remaining - {k};
      seen := seen + {k};
    }
    assert seen == e.Keys;
    assert (set k | k in seen && ServerItemEnabled(e[k])) == ActiveNames(e);
  }

  // ----- properties -----

  /** Disabling then enabling restores an entry that had no `enabled` key; each operation is idempotent. */
  lemma SetEnabledFieldRoundTrip(fields: map<string, TomlValue>, enabled: bool)
    ensures EnabledKey !in fields ==> SetEnabledField(SetEnabledField(fields, false), true) == fields
    ensures SetEnabledField(SetEnabledField(fields, enabled), enabled) == SetEnabledField(fields, enabled)
  {
  }

  /** `enable` and `disable` on a name that is not a sub-table of `mcp_servers` return `Ok` and write nothing. */
  lemma SetEnabledMissIsNoop(file: FileState, name: string, enabled: bool)
    requires LoadDocument(file).Ok?
    requires name !in ServerTable(LoadDocument(file).value.servers)
    ensures SetEnabled(file, name, enabled) == NotSaved
  {
  }

  /** A hit saves the loaded document with only that entry's `enabled` field changed. */
  lemma SetEnabledChangesOnlyFlag(file: FileState, name: string, enabled: bool)
    requires LoadDocument(file).Ok?
    requires var e := ServerTable(LoadDocument(file).value.servers); name in e && e[name].Table?
    ensures var doc := LoadDocument(file).value;
      var e := ServerTable(doc.servers);
      var r := SetEnabled(file, name, enabled);
      && r.Saved?
      && r.doc.legacy == doc.legacy && r.doc.rest == doc.rest
      && ServerTable(r.doc.servers).Keys == e.Keys
      && (forall k :: k in e && k != name ==> ServerTable(r.doc.servers)[k] == e[k])
      && ServerTable(r.doc.servers)[name].Table?
      && ServerItemEnabled(ServerTable(r.doc.servers)[name]) == enabled
      && (forall f :: f != EnabledKey ==>
            (f in ServerTable(r.doc.servers)[name].fields <==> f in e[name].fields))
      && (forall f :: f != EnabledKey && f in e[name].fields ==>
            ServerTable(r.doc.servers)[name].fields[f] == e[name].fields[f])
  {
  }

  /**
   * Disabling an entry without an `enabled` key and then enabling it saves exactly the loaded
   * document again; disabling twice saves the same document as disabling once.
   */
  lemma DisableThenEnableRestores(file: FileState, name: string)
    requires LoadDocument(file).Ok?
    requires var e := ServerTable(LoadDocument(file).value.servers);
      name in e && e[name].Table? && EnabledKey !in e[name].fields
    ensures Disable(file, name).Saved?
    ensures Enable(Present(Disable(file, name).doc), name) == Saved(LoadDocument(file).value)
    ensures Disable(Present(Disable(file, name).doc), name) == Disable(file, name)
  {
    var doc := LoadDocument(file).value;
    var e := ServerTable(doc.servers);
    var f := e[name].fields;
    LoadedHasNoLegacyTable(file);
    var d1 := Disable(file, name).doc;
    assert Migrate(d1) == Ok(d1);
    SetEnabledFieldRoundTrip(f, false);
    var e1 := ServerTable(d1.servers);
    assert e1[name := Table(SetEnabledField(e1[name].fields, true))] == e;
    assert e1[name := Table(SetEnabledField(e1[name].fields, false))] == e1;
  }

  /** A loaded document never keeps a legacy table: migration has removed it. */
  lemma LoadedHasNoLegacyTable(file: FileState)
    requires LoadDocument(file).Ok?
    ensures !LoadDocument(file).value.legacy.Tables?
  {
  }

  /** `delete_mcp_server` removes exactly the named key, or fails with "not found" when it is absent. */
  lemma DeleteRemovesExactlyName(file: FileState, name: string)
    requires LoadDocument(file).Ok?
    ensures var doc := LoadDocument(file).value;
      var e := ServerTable(doc.servers);
      var r := Delete(file, name);
      && (name !in e ==> r == Failed("MCP server '" + name + "' not found"))
      && (name in e ==>
            && r.Saved? && ServerTable(r.doc.servers) == e - {name}
            && r.doc.legacy == doc.legacy && r.doc.rest == doc.rest)
  {
  }

  /**
   * Migration removes the legacy table and puts each legacy entry into `mcp_servers`, marked
   * disabled when it is a sub-table and replacing a same-named entry; other entries and keys stay.
   * It fails when `mcp_servers` is not a table, and does nothing without a legacy table.
   */
  lemma MigrateMovesLegacy(doc: Document)
    ensures !doc.legacy.Tables? ==> Migrate(doc) == Ok(doc)
    ensures doc.legacy.Tables? && doc.servers.NotTable? ==> Migrate(doc).Err?
    ensures doc.legacy.Tables? && !doc.servers.NotTable? ==>
      var m := Migrate(doc);
      var le := doc.legacy.entries;
      var e := ServerTable(doc.servers);
      && m.Ok? && m.value.legacy == Absent && m.value.rest == doc.rest
      && ServerTable(m.value.servers).Keys == e.Keys + le.Keys
      && (forall k :: k in le ==> ServerTable(m.value.servers)[k] == MarkDisabled(le[k]))
      && (forall k :: k in le && le[k].Table? ==> !ServerItemEnabled(ServerTable(m.value.servers)[k]))
      && (forall k :: k in e && k !in le ==> ServerTable(m.value.servers)[k] == e[k])
  {
  }

  /** A name only in the legacy table can be deleted, because loading folds it into `mcp_servers` first. */
  lemma DeleteFindsLegacyName(doc: Document, name: string)
    requires doc.legacy.Tables? && name in doc.legacy.entries && !doc.servers.NotTable?
    ensures Delete(Present(doc), name).Saved?
  {
  }

  /**
   * A legacy entry written as an inline table cannot carry the flag, so migration stores it
   * unmarked and it counts as enabled afterwards, although the legacy layout listed it as disabled.
   */
  lemma InlineLegacyEntryComesBackEnabled(doc: Document, name: string)
    requires doc.legacy.Tables? && !doc.servers.NotTable?
    requires name in doc.legacy.entries && doc.legacy.entries[name].Value?
    ensures Migrate(doc).Ok?
    ensures ServerItemEnabled(ServerTable(Migrate(doc).value.servers)[name])
  {
  }

  /** Deserialising a serialised configuration gives it back, and the document-level check agrees on `enabled`. */
  lemma ParseServerToItem(c: ServerConfig)
    ensures ParseServer(ServerToItem(c)) == Some(c)
    ensures ServerItemEnabled(ServerToItem(c)) == c.enabled
  {
    var f := ServerToItem(c).fields;
    if c.Stdio? {
      var items := f["args"].items;
      assert seq(|items|, i requires 0 <= i < |items| => items[i].s) == c.args;
      if c.env.Some? {
        var env := f["env"].entries;
        assert (map k | k in env :: env[k].s) == c.env.value;
      }
    }
  }

  /** For a sub-table entry the typed reader and `server_item_enabled` agree on whether it is enabled. */
  lemma TypedReaderAgreesOnTables(item: Item)
    requires item.Table? && ParseServer(item).Some?
    ensures ParseServer(item).value.enabled == ServerItemEnabled(item)
  {
  }

  /**
   * For an inline-table entry they disagree: `enabled = false` makes the typed reader list it as
   * disabled, while `server_item_enabled` counts it as enabled and `enable` leaves it unchanged.
   */
  lemma InlineEntryDisagreement()
    ensures var item := Value(InlineTable(map["type" := Str("http"), "url" := Str("u"), EnabledKey := Bool(false)]));
      var doc := Document(Tables(map["s" := item]), Absent, map[]);
      && ParseServer(item) == Some(Http("u", false))
      && ServerItemEnabled(item)
      && Enable(Present(doc), "s") == NotSaved
  {
  }

  /** `add_mcp_server` stores the serialised entry under its name, replacing any previous one, and leaves other entries alone. */
  lemma AddStoresEntry(file: FileState, name: string, c: ServerConfig)
    requires LoadDocument(file).Ok? && !LoadDocument(file).value.servers.NotTable?
    ensures var doc := LoadDocument(file).value;
      var r := Add(file, name, c);
      && r.Saved?
      && ServerTable(r.doc.servers) == ServerTable(doc.servers)[name := ServerToItem(c)]
      && ParseServer(ServerTable(r.doc.servers)[name]) == Some(c)
      && r.doc.rest == doc.rest
  {
    ParseServerToItem(c);
  }

  /** `update_disabled` stores the entry under its name as disabled, whatever its own `enabled` says. */
  lemma UpdateDisabledStoresDisabled(file: FileState, name: string, c: ServerConfig)
    requires LoadDocument(file).Ok? && !LoadDocument(file).value.servers.NotTable?
    ensures var doc := LoadDocument(file).value;
      var r := UpdateDisabled(file, name, c);
      && r.Saved?
      && ServerTable(r.doc.servers).Keys == ServerTable(doc.servers).Keys + {name}
      && (forall k :: k in ServerTable(doc.servers) && k != name ==> ServerTable(r.doc.servers)[k] == ServerTable(doc.servers)[k])
      && !ServerItemEnabled(ServerTable(r.doc.servers)[name])
      && ParseServer(ServerTable(r.doc.servers)[name]) == Some(c.(enabled := false))
  {
    ParseServerToItem(c);
    ParseServerToItem(c.(enabled := false));
    assert MarkDisabled(ServerToItem(c)) == ServerToItem(c.(enabled := false));
  }

  /**
   * After `add_mcp_server`, the typed readers see the new entry as enabled or disabled according
   * to its own flag: `read_mcp_servers` lists it exactly when enabled, `list_disabled` exactly when not.
   */
  lemma ReadersSeeAddedEntry(file: FileState, name: string, c: ServerConfig)
    requires Add(file, name, c).Saved?
    requires ParseConfig(Add(file, name, c).doc).Ok?
    ensures var d := Add(file, name, c).doc;
      && ReadMcpServers(Present(d)).Ok?
      && (name in ReadMcpServers(Present(d)).value <==> c.enabled)
      && (ParseConfig(d).value.legacy == map[] ==> (name in ListDisabled(Present(d)).value <==> !c.enabled))
  {
    ParseServerToItem(c);
  }
}

=== FILE: dashboard.dfy ===
/** The trial status shown on the account dashboard. Times are milliseconds since the epoch. */
module Dashboard {
  import opened Wrappers

  const DayMs := 86400000

  /** The fields of the signed-in user the dashboard reads; `trialEndsAt` is `None` when unset. */
  datatype DashboardUser = DashboardUser(tier: string, trialActive: bool, trialEndsAt: Option<int>)

  /** `Math.ceil(diff / DayMs)`. */
  function CeilDays(diff: int): (d: int)
    ensures (d - 1) * DayMs < diff <= d * DayMs
  {
    (diff + DayMs - 1) / DayMs
  }

  /** `getTrialDaysRemaining`: whole days left, rounded up, never negative; 0 without an end date. */
  function TrialDaysRemaining(trialEndsAt: Option<int>, now: int): (d: nat)
    ensures trialEndsAt.None? ==> d == 0
    ensures trialEndsAt.Some? ==> (d > 0 <==> trialEndsAt.value > now)
    ensures trialEndsAt.Some? && trialEndsAt.value > now ==>
      (d - 1) * DayMs < trialEndsAt.value - now <= d * DayMs
  {
    if trialEndsAt.None? then 0
    else
      var days := CeilDays(trialEndsAt.value - now);
      if days < 0 then 0 else days
  }

  /** The days shown: 0 unless a trial is active; `None` is a user not yet loaded. */
  function DaysShown(user: Option<DashboardUser>, now: int): nat {
    if user.Some? && user.value.trialActive then TrialDaysRemaining(user.value.trialEndsAt, now) else 0
  }

  /** The remaining days never increase as time passes. */
  lemma DaysNonIncreasing(user: Option<DashboardUser>, now: int, later: int)
    requires now <= later
    ensures DaysShown(user, later) <= DaysShown(user, now)
  {
  }

  predicate TrialBanner(user: Option<DashboardUser>, now: int) {
    user.Some? && user.value.trialActive && DaysShown(user, now) > 0
  }

  predicate ExpiredBanner(user: Option<DashboardUser>) {
    user.Some? && user.value.tier == "FREE" && !user.value.trialActive
  }

  /**
   * The two banners never show together; the trial banner shows exactly while an active trial
   * has an end date in the future, and a user not yet loaded sees neither.
   */
  lemma BannersExclusive(user: Option<DashboardUser>, now: int)
    ensures !(TrialBanner(user, now) && ExpiredBanner(user))
    ensures TrialBanner(user, now) <==>
      user.Some? && user.value.trialActive && user.value.trialEndsAt.Some? && user.value.trialEndsAt.value > now
    ensures user.None? ==> !TrialBanner(user, now) && !ExpiredBanner(user)
  {
  }

  /** A trial ending within the coming day still shows one day, and one ending now shows none. */
  lemma LastDayShowsOne(end: int, now: int)
    ensures now < end <= now + DayMs ==> TrialDaysRemaining(Some(end), now) == 1
    ensures end <= now ==> TrialDaysRemaining(Some(end), now) == 0
  {
  }
}

=== FILE: dxt_page.dfy ===
/** The extension-manifest page: normalising stored manifests and choosing between listing and searching. */
module DxtPage {
  import opened Wrappers
  import opened Text
  import opened Json

  /** The members other than `k`: the `...rest` of a destructuring that names `k`. */
  function Without(ms: seq<Member>, k: string): seq<Member> {
    if |ms| == 0 then []
    else if ms[0].key == k then Without(ms[1..], k)
    else [ms[0]] + Without(ms[1..], k)
  }

  /** The rest has no `k`, and every other key with its value; distinct keys stay distinct. */
  lemma {:induction false} WithoutFacts(ms: seq<Member>, k: string, j: string)
    ensures !HasKey(Without(ms, k), k)
    ensures j != k ==> (HasKey(Without(ms, k), j) <==> HasKey(ms, j)) && Get(Without(ms, k), j) == Get(ms, j)
    ensures DistinctKeys(ms) ==> DistinctKeys(Without(ms, k))
  {
    if |ms| > 0 {
      WithoutFacts(ms[1..], k, j);
      HasKeyTail(ms, j);
      HasKeyTail(ms, k);
      var rest := Without(ms[1..], k);
      if ms[0].key != k {
        HasKeyTail([ms[0]] + rest, j);
        HasKeyTail([ms[0]] + rest, k);
        assert ([ms[0]] + rest)[1..] == rest;
        if DistinctKeys(ms) {
          DistinctHead(ms);
          forall i | 0 <= i < |rest| ensures rest[i].key != ms[0].key {
            WithoutFacts(ms[1..], k, rest[i].key);
            if rest[i].key != k {
              assert HasKey(rest, rest[i].key);
            }
          }
        }
      } else if DistinctKeys(ms) {
        DistinctHead(ms);
      }
    }
  }

  function NullToUndefined(v: Value): Value {
    if v.Null? then Undefined else v
  }

  /** Every member whose value is `null` gets `undefined`; keys and order stay and no `null` is left. */
  function NullsToUndefined(ms: seq<Member>): (r: seq<Member>)
    ensures |r| == |ms|
    ensures forall i :: 0 <= i < |r| ==> r[i].key == ms[i].key && r[i].val != Null
    ensures forall i :: 0 <= i < |ms| && ms[i].val != Null ==> r[i] == ms[i]
    ensures forall i :: 0 <= i < |ms| && ms[i].val == Null ==> r[i].val == Undefined
  {
    seq(|ms|, i requires 0 <= i < |ms| => Member(ms[i].key, NullToUndefined(ms[i].val)))
  }

  /**
   * `normalizeManifest`: `id` first, then every other member with `null` replaced by
   * `undefined`. Destructuring null or undefined throws (`None`).
   */
  function NormalizeManifest(obj: Value): Option<Value> {
    if Nullish(obj) then None
    else
      var rest := NullsToUndefined(Without(Entries(obj), "id"));
      Some(Obj(Spread([Member("id", Prop(obj, "id"))], rest)))
  }

  lemma NullsKeepKeys(ms: seq<Member>, j: string)
    ensures HasKey(NullsToUndefined(ms), j) <==> HasKey(ms, j)
    ensures Get(NullsToUndefined(ms), j) == NullToUndefined(Get(ms, j))
    ensures DistinctKeys(ms) ==> DistinctKeys(NullsToUndefined(ms))
  {
    var r := NullsToUndefined(ms);
    if HasKey(ms, j) {
      var i :| 0 <= i < |ms| && ms[i].key == j;
      assert r[i].key == j;
    }
    if HasKey(r, j) {
      var i :| 0 <= i < |r| && r[i].key == j;
      assert ms[i].key == j;
    }
    GetNulls(ms, j);
  }

  lemma {:induction false} GetNulls(ms: seq<Member>, j: string)
    ensures Get(NullsToUndefined(ms), j) == NullToUndefined(Get(ms, j))
  {
    if |ms| > 0 {
      GetNulls(ms[1..], j);
      assert NullsToUndefined(ms)[1..] == NullsToUndefined(ms[1..]);
    }
  }

  /** The members of the normalised manifest, when its keys are distinct: `id` followed by the rest. */
  lemma NormalizedMembers(obj: Value)
    requires !Nullish(obj) && DistinctKeys(Entries(obj))
    ensures var rest := NullsToUndefined(Without(Entries(obj), "id"));
      NormalizeManifest(obj) == Some(Obj([Member("id", Prop(obj, "id"))] + rest))
      && DistinctKeys([Member("id", Prop(obj, "id"))] + rest)
  {
    var rest := NullsToUndefined(Without(Entries(obj), "id"));
    var head := [Member("id", Prop(obj, "id"))];
    WithoutFacts(Entries(obj), "id", "id");
    NullsKeepKeys(Without(Entries(obj), "id"), "id");
    ConsDistinct(head[0], rest);
    assert head == [head[0]];
    SpreadIntoEmpty(head, rest);
  }

  /**
   * A normalised manifest has `id` as its first key, the original keys plus `id` and no others,
   * and the original values except that `null` outside `id` becomes `undefined`.
   */
  lemma NormalizeShape(obj: Value, k: string)
    requires !Nullish(obj) && DistinctKeys(Entries(obj))
    ensures var n := NormalizeManifest(obj).value;
      && n.Obj? && |n.members| > 0 && n.members[0] == Member("id", Prop(obj, "id"))
      && (HasKey(n.members, k) <==> k == "id" || HasKey(Entries(obj), k))
      && (k != "id" ==> Get(n.members, k) == NullToUndefined(Get(Entries(obj), k)))
  {
    NormalizedMembers(obj);
    var rest := NullsToUndefined(Without(Entries(obj), "id"));
    var head := [Member("id", Prop(obj, "id"))];
    HasKeyTail(head + rest, k);
    assert (head + rest)[1..] == rest;
    WithoutFacts(Entries(obj), "id", k);
    NullsKeepKeys(Without(Entries(obj), "id"), k);
  }

  /** Normalising twice is normalising once. */
  lemma NormalizeIdempotent(obj: Value)
    requires !Nullish(obj) && DistinctKeys(Entries(obj))
    ensures NormalizeManifest(NormalizeManifest(obj).value) == NormalizeManifest(obj)
  {
    NormalizedMembers(obj);
    var n := NormalizeManifest(obj).value;
    var rest := NullsToUndefined(Without(Entries(obj), "id"));
    var head := [Member("id", Prop(obj, "id"))];
    WithoutFacts(Entries(obj), "id", "id");
    NullsKeepKeys(Without(Entries(obj), "id"), "id");
    assert n.members == head + rest;
    assert Prop(n, "id") == Prop(obj, "id");
    assert Without(head + rest, "id") == Without(rest, "id") by {
      assert (head + rest)[1..] == rest;
    }
    WithoutNoKey(rest, "id");
    assert Without(Entries(n), "id") == rest;
    NullsIdempotent(Without(Entries(obj), "id"));
    assert NullsToUndefined(Without(Entries(n), "id")) == rest;
  }

  lemma {:induction false} WithoutNoKey(ms: seq<Member>, k: string)
    requires !HasKey(ms, k)
    ensures Without(ms, k) == ms
  {
    if |ms| > 0 {
      HasKeyTail(ms, k);
      WithoutNoKey(ms[1..], k);
    }
  }

  lemma NullsIdempotent(ms: seq<Member>)
    ensures NullsToUndefined(NullsToUndefined(ms)) == NullsToUndefined(ms)
  {
  }

  /** What the search button loads. */
  datatype Query = AllManifests | SearchFor(text: string)

  /** `handleSearch`: blank text lists everything; other text is searched for as typed, untrimmed. */
  function HandleSearch(search: string): (q: Query)
    ensures q.AllManifests? <==> AllWhitespace(search)
    ensures q.SearchFor? ==> q.text == search
  {
    TrimEmptyIffBlank(search);
    if Trim(search) == "" then AllManifests else SearchFor(search)
  }
}

=== FILE: json.dfy ===
/**
 * JavaScript values as the front end sees them after `JSON.parse`, plus `undefined`.
 * Objects are ordered member lists, because the code depends on key enumeration order
 * (the first server key, rows in entry order, query parameters in order).
 */
module Json {
  import opened Text

  datatype Value =
    | Undefined
    | Null
    | Bool(b: bool)
    | Num(n: int)
    | Str(s: string)
    | Arr(items: seq<Value>)
    | Obj(members: seq<Member>)

  datatype Member = Member(key: string, val: Value)

  /** JavaScript truthiness (numbers are integers here, so NaN does not arise). */
  predicate Truthy(v: Value) {
    match v
    case Undefined => false
    case Null => false
    case Bool(b) => b
    case Num(n) => n != 0
    case Str(s) => s != ""
    case Arr(_) => true
    case Obj(_) => true
  }

  /** `v == null`: reading a property of such a value throws a TypeError. */
  predicate Nullish(v: Value) {
    v.Undefined? || v.Null?
  }

  /** `typeof v === "object" && v` : objects and arrays. */
  predicate IsObjectLike(v: Value) {
    v.Obj? || v.Arr?
  }

  function Keys(ms: seq<Member>): (ks: seq<string>)
    ensures |ks| == |ms|
    ensures forall i :: 0 <= i < |ms| ==> ks[i] == ms[i].key
  {
    if |ms| == 0 then [] else [ms[0].key] + Keys(ms[1..])
  }

  predicate HasKey(ms: seq<Member>, k: string) {
    exists i :: 0 <= i < |ms| && ms[i].key == k
  }

  /** No key occurs twice: every object built by the application has this shape. */
  predicate DistinctKeys(ms: seq<Member>) {
    forall i, j :: 0 <= i < j < |ms| ==> ms[i].key != ms[j].key
  }

  /** Property read `o[k]` on an object: the member's value, or `undefined`. */
  function Get(ms: seq<Member>, k: string): Value {
    if |ms| == 0 then Undefined
    else if ms[0].key == k then ms[0].val
    else Get(ms[1..], k)
  }

  /** Property read on any non-nullish value: only objects carry named members here. */
  function Prop(v: Value, k: string): Value {
    if v.Obj? then Get(v.members, k) else Undefined
  }

  /** Assignment `o[k] = v`: an existing key keeps its position, a new key goes last. */
  function Put(ms: seq<Member>, k: string, v: Value): seq<Member> {
    if |ms| == 0 then [Member(k, v)]
    else if ms[0].key == k then [Member(k, v)] + ms[1..]
    else [ms[0]] + Put(ms[1..], k, v)
  }

  /** The members that the spread syntax `{...v}` copies out of `v`. */
  function Entries(v: Value): seq<Member> {
    match v
    case Obj(ms) => ms
    case Arr(items) => seq(|items|, i requires 0 <= i < |items| => Member(NatToString(i), items[i]))
    case Str(s) => seq(|s|, i requires 0 <= i < |s| => Member(NatToString(i), Str([s[i]])))
    case _ => []
  }

  /** `{...ms, ...extra}`: each member of `extra` is assigned in turn. */
  function Spread(ms: seq<Member>, extra: seq<Member>): seq<Member>
    decreases |extra|
  {
    if |extra| == 0 then ms else Spread(Put(ms, extra[0].key, extra[0].val), extra[1..])
  }

  lemma {:induction false} HasKeyGet(ms: seq<Member>, k: string)
    ensures !HasKey(ms, k) ==> Get(ms, k) == Undefined
    ensures HasKey(ms, k) <==> k in Keys(ms)
  {
    if |ms| > 0 {
      HasKeyGet(ms[1..], k);
      HasKeyTail(ms, k);
      assert Keys(ms) == [ms[0].key] + Keys(ms[1..]);
    }
  }

  lemma HasKeyTail(ms: seq<Member>, k: string)
    requires |ms| > 0
    ensures HasKey(ms, k) <==> ms[0].key == k || HasKey(ms[1..], k)
  {
    if HasKey(ms[1..], k) {
      var i :| 0 <= i < |ms| - 1 && ms[1..][i].key == k;
      assert ms[i + 1].key == k;
    }
    if HasKey(ms, k) && ms[0].key != k {
      var i :| 0 <= i < |ms| && ms[i].key == k;
      assert ms[1..][i - 1].key == k;
    }
  }

  /** In an object with distinct keys the first key does not occur again. */
  lemma DistinctHead(ms: seq<Member>)
    requires |ms| > 0 && DistinctKeys(ms)
    ensures DistinctKeys(ms[1..])
    ensures !HasKey(ms[1..], ms[0].key)
  {
    forall i | 0 <= i < |ms| - 1 ensures ms[1..][i].key != ms[0].key {
      assert ms[1..][i] == ms[i + 1];
    }
  }

  /** Putting a member with a new key in front of distinct keys keeps them distinct. */
  lemma ConsDistinct(m: Member, ms: seq<Member>)
    requires DistinctKeys(ms) && !HasKey(ms, m.key)
    ensures DistinctKeys([m] + ms)
  {
    var all := [m] + ms;
    forall i, j | 0 <= i < j < |all| ensures all[i].key != all[j].key {
      assert all[j] == ms[j - 1];
      if i > 0 {
        assert all[i] == ms[i - 1];
      }
    }
  }

  /** Assignment sets the key and keeps every other key's value. */
  lemma {:induction false} PutGet(ms: seq<Member>, k: string, v: Value)
    ensures Get(Put(ms, k, v), k) == v
    ensures forall j :: j != k ==> Get(Put(ms, k, v), j) == Get(ms, j)
  {
    if |ms| > 0 && ms[0].key != k {
      PutGet(ms[1..], k, v);
    }
  }

  /** Assignment adds exactly the assigned key; a new key goes at the end. */
  lemma {:induction false} PutKeys(ms: seq<Member>, k: string, v: Value)
    ensures forall j :: HasKey(Put(ms, k, v), j) <==> HasKey(ms, j) || j == k
    ensures HasKey(ms, k) ==> |Put(ms, k, v)| == |ms|
    ensures !HasKey(ms, k) ==> Put(ms, k, v) == ms + [Member(k, v)]
  {
    if |ms| > 0 {
      PutKeys(ms[1..], k, v);
      var r := Put(ms, k, v);
      forall j ensures HasKey(r, j) <==> HasKey(ms, j) || j == k {
        HasKeyTail(ms, j);
        HasKeyTail(r, j);
        if ms[0].key == k {
          assert r[1..] == ms[1..];
        } else {
          assert r[1..] == Put(ms[1..], k, v);
        }
      }
      HasKeyTail(ms, k);
    } else {
      assert Put(ms, k, v)[0].key == k;
    }
  }

  lemma {:induction false} PutDistinct(ms: seq<Member>, k: string, v: Value)
    requires DistinctKeys(ms)
    ensures DistinctKeys(Put(ms, k, v))
  {
    if |ms| > 0 {
      DistinctHead(ms);
      var r := Put(ms, k, v);
      if ms[0].key == k {
        forall i, j | 0 <= i < j < |r| ensures r[i].key != r[j].key {
          assert r[j] == ms[j];
          if i > 0 { assert r[i] == ms[i]; }
        }
      } else {
        var t := Put(ms[1..], k, v);
        PutDistinct(ms[1..], k, v);
        PutKeys(ms[1..], k, v);
        assert !HasKey(t, ms[0].key);
        forall i, j | 0 <= i < j < |r| ensures r[i].key != r[j].key {
          assert r[j] == t[j - 1];
          if i > 0 { assert r[i] == t[i - 1]; }
        }
      }
    }
  }

  /** Reading a key after `{...ms, ...extra}` finds `extra`'s value when it has the key, else `ms`'s. */
  lemma {:induction false} SpreadGet(ms: seq<Member>, extra: seq<Member>, k: string)
    requires DistinctKeys(extra)
    ensures Get(Spread(ms, extra), k) == if HasKey(extra, k) then Get(extra, k) else Get(ms, k)
    ensures HasKey(Spread(ms, extra), k) <==> HasKey(ms, k) || HasKey(extra, k)
    decreases |extra|
  {
    if |extra| > 0 {
      var m := Put(ms, extra[0].key, extra[0].val);
      PutGet(ms, extra[0].key, extra[0].val);
      PutKeys(ms, extra[0].key, extra[0].val);
      DistinctHead(extra);
      HasKeyTail(extra, k);
      HasKeyGet(extra[1..], k);
      SpreadGet(m, extra[1..], k);
    }
  }

  /** Spreading an object with distinct keys onto one without those keys appends it unchanged. */
  lemma {:induction false} SpreadIntoEmpty(acc: seq<Member>, extra: seq<Member>)
    requires DistinctKeys(acc + extra)
    ensures Spread(acc, extra) == acc + extra
    decreases |extra|
  {
    if |extra| > 0 {
      var k := extra[0].key;
      forall i | 0 <= i < |acc| ensures acc[i].key != k {
        assert acc[i] == (acc + extra)[i];
        assert extra[0] == (acc + extra)[|acc|];
      }
      PutKeys(acc, k, extra[0].val);
      assert acc + [extra[0]] + extra[1..] == acc + extra;
      SpreadIntoEmpty(acc + [extra[0]], extra[1..]);
    }
  }

  /** `{...ms, [k]: v}`: a copy of the object with one key assigned. */
  function With(ms: seq<Member>, k: string, v: Value): seq<Member> {
    Put(Spread([], ms), k, v)
  }

  /** On an object without repeated keys, the copy-and-assign sets `k` and keeps every other key and value. */
  lemma WithGet(ms: seq<Member>, k: string, v: Value)
    requires DistinctKeys(ms)
    ensures With(ms, k, v) == Put(ms, k, v)
    ensures Get(With(ms, k, v), k) == v
    ensures forall j :: j != k ==> Get(With(ms, k, v), j) == Get(ms, j)
    ensures forall j :: HasKey(With(ms, k, v), j) <==> HasKey(ms, j) || j == k
    ensures DistinctKeys(With(ms, k, v))
  {
    assert [] + ms == ms;
    SpreadIntoEmpty([], ms);
    assert With(ms, k, v) == Put(ms, k, v);
    PutGet(ms, k, v);
    PutKeys(ms, k, v);
    PutDistinct(ms, k, v);
  }
}

=== FILE: local_table.dfy ===
/**
 * The table of a client's local servers: its rows, the statistics published from them, and
 * the batch actions on the selected rows. Each backend call's outcome is an input; a row
 * selection is the list of selected row indices in enumeration order.
 */
module LocalTable {
  import opened Wrappers
  import opened Json

  /** The row for one server: `{name, ...serverConfig}`, so a `name` field of the config wins. */
  function Row(name: string, config: Value): seq<Member> {
    Spread([Member("name", Str(name))], Entries(config))
  }

  /** The rows built from a list of (name, config) entries, in entry order. */
  function Rows(entries: seq<Member>): (rows: seq<seq<Member>>)
    ensures |rows| == |entries|
    ensures forall i :: 0 <= i < |entries| ==> rows[i] == Row(entries[i].key, entries[i].val)
  {
    seq(|entries|, i requires 0 <= i < |entries| => Row(entries[i].key, entries[i].val))
  }

  /** `x ?? {}`. */
  function OrEmpty(v: Value): Value {
    if Nullish(v) then Obj([]) else v
  }

  /** Active rows followed by disabled rows. */
  function ServersData(active: Value, disabled: Value): seq<seq<Member>> {
    Rows(Entries(OrEmpty(active))) + Rows(Entries(OrEmpty(disabled)))
  }

  datatype Stats = Stats(total: nat, active: nat, disabled: nat)

  /** The statistics published while the rows are built. */
  function PersonalStats(active: Value, disabled: Value): (s: Stats)
    ensures s.total == s.active + s.disabled == |ServersData(active, disabled)|
    ensures s.active == |Entries(OrEmpty(active))| && s.disabled == |Entries(OrEmpty(disabled))|
  {
    Stats(|Entries(OrEmpty(active))| + |Entries(OrEmpty(disabled))|,
          |Entries(OrEmpty(active))|, |Entries(OrEmpty(disabled))|)
  }

  /** The value in a row's `name` column. */
  function RowName(row: seq<Member>): Value {
    Get(row, "name")
  }

  /** Every active row precedes every disabled row, and each row belongs to the entry at its position. */
  lemma ServersDataOrder(active: Value, disabled: Value)
    ensures var a := Entries(OrEmpty(active)); var d := Entries(OrEmpty(disabled));
      var rows := ServersData(active, disabled);
      && |rows| == |a| + |d|
      && (forall i :: 0 <= i < |a| ==> rows[i] == Row(a[i].key, a[i].val))
      && (forall i :: 0 <= i < |d| ==> rows[|a| + i] == Row(d[i].key, d[i].val))
  {
  }

  /** A row's name is its key unless the config carries its own `name`, which then wins. */
  lemma RowNameIsKeyUnlessOverridden(name: string, config: Value)
    requires DistinctKeys(Entries(config))
    ensures RowName(Row(name, config)) ==
      if HasKey(Entries(config), "name") then Get(Entries(config), "name") else Str(name)
    ensures forall k :: k != "name" ==> Get(Row(name, config), k) == Get(Entries(config), k)
  {
    SpreadGet([Member("name", Str(name))], Entries(config), "name");
    forall k | k != "name" ensures Get(Row(name, config), k) == Get(Entries(config), k) {
      SpreadGet([Member("name", Str(name))], Entries(config), k);
      HasKeyGet(Entries(config), k);
    }
  }

  /**
   * `selection.map((i) => serversData[i].name)`: `None` when an index is past the end,
   * where reading `.name` of `undefined` throws.
   */
  function SelectedNames(rows: seq<seq<Member>>, selection: seq<nat>): (r: Option<seq<Value>>)
    ensures r.Some? <==> forall i :: 0 <= i < |selection| ==> selection[i] < |rows|
    ensures r.Some? ==> |r.value| == |selection|
    ensures r.Some? ==> forall i :: 0 <= i < |selection| ==> r.value[i] == RowName(rows[selection[i]])
  {
    if |selection| == 0 then Some([])
    else if selection[0] >= |rows| then None
    else
      match SelectedNames(rows, selection[1..])
      case None => None
      case Some(rest) => Some([RowName(rows[selection[0]])] + rest)
  }

  datatype Call = Enable(name: Value) | Disable(name: Value) | BatchDelete(names: seq<Value>)

  function ToggleCall(enable: bool, name: Value): Call {
    if enable then Enable(name) else Disable(name)
  }

  /**
   * The awaited calls of a batch enable (or disable), one per name in order. The first call
   * that rejects ends the loop, so later names are not attempted.
   */
  method IssueToggles(names: seq<Value>, enable: bool, resolves: nat -> bool)
    returns (calls: seq<Call>, allResolved: bool)
    ensures |calls| <= |names|
    ensures forall i :: 0 <= i < |calls| ==> calls[i] == ToggleCall(enable, names[i])
    ensures forall i :: 0 <= i < |calls| - 1 ==> resolves(i)
    ensures |names| > 0 ==> |calls| > 0
    ensures |calls| < |names| ==> !resolves(|calls| - 1)
    ensures allResolved <==> forall i :: 0 <= i < |names| ==> resolves(i)
  {
    calls := [];
    var i := 0;
    while i < |names|
      invariant 0 <= i <= |names|
      invariant |calls| == i
      invariant forall j :: 0 <= j < i ==> calls[j] == ToggleCall(enable, names[j])
      invariant forall j :: 0 <= j < i ==> resolves(j)
    {
      calls := calls + [ToggleCall(enable, names[i])];
      if !resolves(i) {
        return calls, false;
      }
      i := i + 1;
    }
    allResolved := true;
  }

  /**
   * The batch enable (or disable) handler. The selection is cleared only when every call
   * resolved; a rejection leaves it as it was. An index past the end throws before any call.
   */
  method BatchToggle(rows: seq<seq<Member>>, selection: seq<nat>, enable: bool, resolves: nat -> bool)
    returns (calls: seq<Call>, selectionAfter: seq<nat>)
    ensures SelectedNames(rows, selection).None? ==> calls == [] && selectionAfter == selection
    ensures SelectedNames(rows, selection).Some? ==>
      |calls| <= |selection| &&
      forall i :: 0 <= i < |calls| ==> calls[i] == ToggleCall(enable, RowName(rows[selection[i]]))
    ensures SelectedNames(rows, selection).Some? ==>
      && (forall i :: 0 <= i < |calls| - 1 ==> resolves(i))
      && (|selection| > 0 ==> |calls| > 0)
      && (|calls| < |selection| ==> !resolves(|calls| - 1))
    ensures selectionAfter == [] <==>
      selection == [] || (SelectedNames(rows, selection).Some? && forall i :: 0 <= i < |selection| ==> resolves(i))
    ensures selectionAfter != [] ==> selectionAfter == selection
  {
    var selected := SelectedNames(rows, selection);
    if selected.None? {
      return [], selection;
    }
    var allResolved;
    calls, allResolved := IssueToggles(selected.value, enable, resolves);
    selectionAfter := if allResolved then [] else selection;
  }

  /**
   * Batch delete: one call with every selected name. The selection is cleared only when it
   * resolves; a rejection, or an index past the end, is caught and leaves the selection as it was.
   */
  function BatchDeleteHandler(rows: seq<seq<Member>>, selection: seq<nat>, resolves: bool): (r: (seq<Call>, seq<nat>))
    ensures SelectedNames(rows, selection).None? ==> r == ([], selection)
    ensures SelectedNames(rows, selection).Some? ==>
      && r.0 == [BatchDelete(SelectedNames(rows, selection).value)]
      && r.1 == (if resolves then [] else selection)
  {
    match SelectedNames(rows, selection)
    case None => ([], selection)
    case Some(names) => ([BatchDelete(names)], if resolves then [] else selection)
  }

  datatype CloudSyncEffect = OpenCloudSyncDialog | NavigateTo(path: string)

  /** The Cloud Sync button: without an encryption key the user is sent to the settings page. */
  function CloudSyncButton(encryptionKey: Option<string>): (e: CloudSyncEffect)
    ensures e.OpenCloudSyncDialog? <==> encryptionKey.Some? && encryptionKey.value != ""
    ensures e.NavigateTo? ==> e.path == "/settings"
  {
    if encryptionKey.None? || encryptionKey.value == "" then NavigateTo("/settings") else OpenCloudSyncDialog
  }
}

=== FILE: mcp_sync.dfy ===
/**
 * Cross-client synchronisation of MCP server configurations (`sync_mcp_config`).
 *
 * A client's configuration file is a JSON object with an active table `mcpServers`,
 * a table of disabled servers `__disabled`, and other top-level keys. The sync copies
 * the source client's two tables into the destination's, either replacing them
 * (`override_all`) or adding only the names the destination does not know, and then
 * converts between the `__disabled` table and the per-entry flags of clients that
 * keep disabled servers inside `mcpServers`.
 */
module McpSync {
  import opened Wrappers
  import opened Json

  /** One server's configuration object, as its field map. */
  type Entry = map<string, Value>

  type Servers = map<string, Entry>

  /** What a top-level key of the file holds: nothing, `null`, a table of servers, or something else. */
  datatype Slot = Missing | Null | Object(entries: Servers) | NotObject(raw: Value)

  /** A client configuration file: the two server tables and every other top-level key. */
  datatype ConfigFile = ConfigFile(servers: Slot, disabled: Slot, rest: map<string, Value>)

  /**
   * How a client marks disabled servers. `perServerDisabled` clients (cline, roo_code) use
   * `"disabled": true` inside `mcpServers`; `cherryStudio` clients use `"isActive": false`.
   * The predicates that classify a client name are not part of this model, so the kinds are inputs.
   */
  datatype ClientKind = ClientKind(perServerDisabled: bool, cherryStudio: bool)

  const Plain := ClientKind(false, false)
  const PerServer := ClientKind(true, false)
  const Cherry := ClientKind(false, true)

  const DisabledFlag := "disabled"
  const ActiveFlag := "isActive"

  /** The entries of a slot when it is an object (`as_object()`), else none. */
  function Table(s: Slot): Servers {
    if s.Object? then s.entries else map[]
  }

  function Names(s: Slot): set<string> {
    Table(s).Keys
  }

  /** `from_json.get(key).cloned().unwrap_or(json!({}))`: only an absent key reads as `{}`. */
  function SourceTable(s: Slot): Slot {
    if s.Missing? then Object(map[]) else s
  }

  /** `if to_json[key].is_null() { to_json[key] = json!({}) }`. */
  function EnsureTable(s: Slot): Slot {
    if s.Missing? || s.Null? then Object(map[]) else s
  }

  /** An unreadable destination is treated as the empty object. */
  function Destination(to: Result<ConfigFile>): ConfigFile {
    if to.Ok? then to.value else ConfigFile(Missing, Missing, map[])
  }

  /**
   * One additive pass: each entry of `src` whose name is in neither `dest` nor `other`
   * is inserted into `dest`, when `dest` is an object. Existing entries are never replaced.
   */
  function AddMissing(dest: Slot, other: Slot, src: Slot): Slot {
    if dest.Object? && src.Object? then
      Object(dest.entries + map k | k in src.entries && k !in dest.entries && k !in Names(other) :: src.entries[k])
    else dest
  }

  /** The override or merge step, before any client-specific conversion. */
  function Combine(source: ConfigFile, dest: ConfigFile, overrideAll: bool): ConfigFile {
    var fromServers := SourceTable(source.servers);
    var fromDisabled := SourceTable(source.disabled);
    if overrideAll then
      dest.(servers := fromServers, disabled := fromDisabled)
    else
      var s0 := EnsureTable(dest.servers);
      var d0 := EnsureTable(dest.disabled);
      var s1 := AddMissing(s0, d0, fromServers);
      var d1 := AddMissing(d0, s1, fromDisabled);
      dest.(servers := s1, disabled := d1)
  }

  /**
   * Destination conversion: every `__disabled` entry goes into `mcpServers` with `field` set to
   * `flag` (replacing a same-named active entry), then `__disabled` becomes `{}`.
   */
  function FlagDisabled(f: ConfigFile, field: string, flag: Value): ConfigFile {
    var servers :=
      if f.disabled.Object? && f.servers.Object? then
        Object(f.servers.entries + map k | k in f.disabled.entries :: f.disabled.entries[k][field := flag])
      else f.servers;
    f.(servers := servers, disabled := Object(map[]))
  }

  /** Names of the entries whose `field` holds exactly `flag`. */
  function Flagged(m: Servers, field: string, flag: Value): (r: set<string>)
    ensures r <= m.Keys
    ensures forall k :: k in r <==> k in m && field in m[k] && m[k][field] == flag
  {
    set k | k in m && field in m[k] && m[k][field] == flag
  }

  /** `as_bool()`: the boolean a JSON value holds, if it is one. */
  function AsBool(v: Value): Option<bool> {
    if v.Bool? then Some(v.b) else None
  }

  /** `entry.get(field).and_then(as_bool)`. */
  function FieldAsBool(e: Entry, field: string): Option<bool> {
    if field in e then AsBool(e[field]) else None
  }

  /**
   * The two selections the source conversion makes, in the source's own terms: an entry moves
   * from a per-server-disabled client when `get("disabled").and_then(as_bool).unwrap_or(false)`
   * holds, and from a cherrystudio client when `get("isActive").and_then(as_bool) == Some(false)`.
   * A missing flag, or a flag that is not a boolean, never moves an entry.
   */
  lemma FlaggedSelection(m: Servers)
    ensures forall k :: k in Flagged(m, DisabledFlag, Bool(true)) <==>
                        k in m && FieldAsBool(m[k], DisabledFlag).GetOr(false)
    ensures forall k :: k in Flagged(m, ActiveFlag, Bool(false)) <==>
                        k in m && FieldAsBool(m[k], ActiveFlag) == Some(false)
    ensures forall k :: k in m && DisabledFlag !in m[k] ==> k !in Flagged(m, DisabledFlag, Bool(true))
    ensures forall k :: k in m && ActiveFlag in m[k] && !m[k][ActiveFlag].Bool? ==>
                        k !in Flagged(m, ActiveFlag, Bool(false))
  {
  }

  /**
   * Source conversion: every `mcpServers` entry whose `field` is `flag` leaves `mcpServers`
   * and goes into `__disabled` without that field. When `__disabled` is not an object the
   * moved entries are removed and not re-inserted anywhere.
   */
  function Unflag(f: ConfigFile, field: string, flag: Value): ConfigFile {
    var m := Table(f.servers);
    var moving := Flagged(m, field, flag);
    var servers := if f.servers.Object? then Object(m - moving) else f.servers;
    var disabled :=
      if f.disabled.Object? then Object(f.disabled.entries + map k | k in moving :: m[k] - {field})
      else f.disabled;
    f.(servers := servers, disabled := disabled)
  }

  /**
   * `sync_mcp_config`: the file written to the destination, or the source read error.
   * An unreadable destination counts as `{}`; writing the file is not modelled.
   */
  function Sync(source: Result<ConfigFile>, to: Result<ConfigFile>, fromKind: ClientKind,
                toKind: ClientKind, overrideAll: bool): (r: Result<ConfigFile>)
    ensures source.Err? <==> r.Err?
    ensures r.Ok? && toKind.perServerDisabled ==> r.value.disabled.Object?
    ensures r.Ok? ==> r.value.rest == Destination(to).rest
  {
    if source.Err? then Err(source.error)
    else
      var f0 := Combine(source.value, Destination(to), overrideAll);
      var f1 := if toKind.perServerDisabled then FlagDisabled(f0, DisabledFlag, Bool(true)) else f0;
      var f2 := if toKind.cherryStudio then FlagDisabled(f1, ActiveFlag, Bool(false)) else f1;
      var f3 := if fromKind.perServerDisabled then Unflag(f2, DisabledFlag, Bool(true)) else f2;
      var f4 := if fromKind.cherryStudio then Unflag(f3, ActiveFlag, Bool(false)) else f3;
      Ok(f4)
  }

  /**
   * With `override_all` between plain clients, the destination's two tables become the
   * source's (an absent source table counts as `{}`), so a destination-only name disappears,
   * and every other top-level key of the destination is kept.
   */
  lemma OverrideReplacesTables(source: ConfigFile, to: Result<ConfigFile>)
    ensures var r := Sync(Ok(source), to, Plain, Plain, true);
      && r.Ok?
      && r.value.servers == SourceTable(source.servers)
      && r.value.disabled == SourceTable(source.disabled)
      && Table(r.value.servers) == Table(source.servers)
      && Table(r.value.disabled) == Table(source.disabled)
      && r.value.rest == Destination(to).rest
  {
  }

  /**
   * Merge mode between plain clients never overwrites: every entry the destination had in
   * either table is still there with the same value, and every new entry is the source's.
   */
  lemma MergeKeepsDestination(source: ConfigFile, to: Result<ConfigFile>)
    ensures var d := Destination(to);
      var r := Sync(Ok(source), to, Plain, Plain, false).value;
      && (forall k :: k in Table(d.servers) ==> k in Table(r.servers) && Table(r.servers)[k] == Table(d.servers)[k])
      && (forall k :: k in Table(d.disabled) ==> k in Table(r.disabled) && Table(r.disabled)[k] == Table(d.disabled)[k])
      && (forall k :: k in Table(r.servers) && k !in Table(d.servers) ==>
            k in Table(source.servers) && Table(r.servers)[k] == Table(source.servers)[k])
      && (forall k :: k in Table(r.disabled) && k !in Table(d.disabled) ==>
            k in Table(source.disabled) && Table(r.disabled)[k] == Table(source.disabled)[k])
  {
  }

  /** Merge mode adds a name to neither table when it is already in one of them, so disjoint tables stay disjoint. */
  lemma MergeKeepsTablesDisjoint(source: ConfigFile, to: Result<ConfigFile>)
    requires Names(Destination(to).servers) !! Names(Destination(to).disabled)
    ensures var r := Sync(Ok(source), to, Plain, Plain, false).value;
      Names(r.servers) !! Names(r.disabled)
  {
  }

  /** Repeating an additive pass with the same source adds nothing, even against a larger other table. */
  lemma AddMissingStable(dest: Slot, other: Slot, other2: Slot, src: Slot)
    requires Names(other) <= Names(other2)
    ensures AddMissing(AddMissing(dest, other, src), other2, src) == AddMissing(dest, other, src)
  {
    var once := AddMissing(dest, other, src);
    if once.Object? && src.Object? {
      assert forall k :: k in src.entries && k !in once.entries ==> k in Names(other2);
    }
  }

  /** Merge mode between plain clients is idempotent: repeating it with the same source changes nothing. */
  lemma MergeIdempotent(source: ConfigFile, to: Result<ConfigFile>)
    ensures var once := Sync(Ok(source), to, Plain, Plain, false).value;
      Sync(Ok(source), Ok(once), Plain, Plain, false) == Ok(once)
  {
    var d := Destination(to);
    var fs := SourceTable(source.servers);
    var fd := SourceTable(source.disabled);
    var s0 := EnsureTable(d.servers);
    var d0 := EnsureTable(d.disabled);
    var s1 := AddMissing(s0, d0, fs);
    var d1 := AddMissing(d0, s1, fd);
    assert Names(d0) <= Names(d1);
    AddMissingStable(s0, d0, d1, fs);
    AddMissingStable(d0, s1, s1, fd);
    var once := d.(servers := s1, disabled := d1);
    assert Combine(source, once, false) == once;
  }

  /**
   * A name in both source tables and unknown to the destination lands only in the destination's
   * `mcpServers`, with the source's active entry: the active table is merged first.
   */
  lemma MergePrefersActiveSource(source: ConfigFile, to: Result<ConfigFile>, k: string)
    requires k in Table(source.servers) && k in Table(source.disabled)
    requires k !in Names(Destination(to).servers) && k !in Names(Destination(to).disabled)
    requires !Destination(to).servers.NotObject?
    ensures var r := Sync(Ok(source), to, Plain, Plain, false).value;
      k in Table(r.servers) && Table(r.servers)[k] == Table(source.servers)[k] && k !in Table(r.disabled)
  {
  }

  /**
   * A per-server-disabled destination (cline, roo_code) synced from a plain source ends with an
   * empty `__disabled`; each entry that was disabled after the merge or override is in
   * `mcpServers` with `"disabled": true`, and each other active entry is unchanged.
   */
  lemma PerServerDestinationFlagsDisabled(source: ConfigFile, to: Result<ConfigFile>, overrideAll: bool)
    ensures var c := Combine(source, Destination(to), overrideAll);
      var r := Sync(Ok(source), to, Plain, PerServer, overrideAll).value;
      && r.disabled == Object(map[])
      && (c.servers.Object? ==>
            && (forall k :: k in Table(c.disabled) ==>
                  k in Table(r.servers) && Table(r.servers)[k] == Table(c.disabled)[k][DisabledFlag := Bool(true)])
            && (forall k :: k in Table(c.servers) && k !in Table(c.disabled) ==>
                  k in Table(r.servers) && Table(r.servers)[k] == Table(c.servers)[k])
            && Names(r.servers) == Names(c.servers) + Names(c.disabled))
  {
  }

  /** The same conversion for a cherrystudio destination uses `"isActive": false`. */
  lemma CherryDestinationFlagsDisabled(source: ConfigFile, to: Result<ConfigFile>, overrideAll: bool)
    ensures var c := Combine(source, Destination(to), overrideAll);
      var r := Sync(Ok(source), to, Plain, Cherry, overrideAll).value;
      && r.disabled == Object(map[])
      && (c.servers.Object? ==>
            && (forall k :: k in Table(c.disabled) ==>
                  k in Table(r.servers) && Table(r.servers)[k] == Table(c.disabled)[k][ActiveFlag := Bool(false)])
            && (forall k :: k in Table(c.servers) && k !in Table(c.disabled) ==>
                  k in Table(r.servers) && Table(r.servers)[k] == Table(c.servers)[k])
            && Names(r.servers) == Names(c.servers) + Names(c.disabled))
  {
  }

  /** What the source conversion does to one file, for any flag field. */
  lemma UnflagMoves(f: ConfigFile, field: string, flag: Value)
    requires f.servers.Object? && f.disabled.Object?
    ensures var r := Unflag(f, field, flag);
      var m := Table(f.servers);
      && (forall k :: k in m ==>
            if field in m[k] && m[k][field] == flag then
              k !in Table(r.servers) && k in Table(r.disabled) && Table(r.disabled)[k] == m[k] - {field}
            else
              k in Table(r.servers) && Table(r.servers)[k] == m[k])
      && (forall k :: k in Table(f.disabled) && k !in Flagged(m, field, flag) ==>
            k in Table(r.disabled) && Table(r.disabled)[k] == Table(f.disabled)[k])
      && Names(r.servers) + Names(r.disabled) == Names(f.servers) + Names(f.disabled)
  {
  }

  /**
   * From a per-server-disabled source into a plain destination, each merged `mcpServers` entry
   * with `"disabled"` exactly `true` moves to `__disabled` without that field; the rest stay.
   */
  lemma PerServerSourceMovesFlagged(source: ConfigFile, to: Result<ConfigFile>, overrideAll: bool)
    requires var c := Combine(source, Destination(to), overrideAll);
      c.servers.Object? && c.disabled.Object?
    ensures var c := Combine(source, Destination(to), overrideAll);
      var m := Table(c.servers);
      var r := Sync(Ok(source), to, PerServer, Plain, overrideAll).value;
      forall k :: k in m ==>
        if DisabledFlag in m[k] && m[k][DisabledFlag] == Bool(true) then
          k !in Table(r.servers) && Table(r.disabled)[k] == m[k] - {DisabledFlag}
        else
          Table(r.servers)[k] == m[k]
  {
    UnflagMoves(Combine(source, Destination(to), overrideAll), DisabledFlag, Bool(true));
  }

  /** From a cherrystudio source, only entries with `"isActive"` exactly `false` move to `__disabled`. */
  lemma CherrySourceMovesInactive(source: ConfigFile, to: Result<ConfigFile>, overrideAll: bool)
    requires var c := Combine(source, Destination(to), overrideAll);
      c.servers.Object? && c.disabled.Object?
    ensures var c := Combine(source, Destination(to), overrideAll);
      var m := Table(c.servers);
      var r := Sync(Ok(source), to, Cherry, Plain, overrideAll).value;
      forall k :: k in m ==>
        if ActiveFlag in m[k] && m[k][ActiveFlag] == Bool(false) then
          k !in Table(r.servers) && Table(r.disabled)[k] == m[k] - {ActiveFlag}
        else
          Table(r.servers)[k] == m[k]
  {
    UnflagMoves(Combine(source, Destination(to), overrideAll), ActiveFlag, Bool(false));
  }

  /**
   * Between two per-server-disabled clients the destination conversion runs before the source
   * conversion, so every disabled server ends in `__disabled` and none keeps `"disabled": true`.
   */
  lemma PerServerToPerServerUsesDisabledTable(source: ConfigFile, to: Result<ConfigFile>, overrideAll: bool)
    requires Combine(source, Destination(to), overrideAll).servers.Object?
    ensures var c := Combine(source, Destination(to), overrideAll);
      var r := Sync(Ok(source), to, PerServer, PerServer, overrideAll).value;
      && (forall k :: k in Table(r.servers) ==> !(DisabledFlag in Table(r.servers)[k] && Table(r.servers)[k][DisabledFlag] == Bool(true)))
      && (forall k :: k in Table(c.disabled) ==> k in Table(r.disabled) && Table(r.disabled)[k] == Table(c.disabled)[k] - {DisabledFlag})
  {
    var c := Combine(source, Destination(to), overrideAll);
    var f1 := FlagDisabled(c, DisabledFlag, Bool(true));
    UnflagMoves(f1, DisabledFlag, Bool(true));
    forall k | k in Table(c.disabled)
      ensures Table(c.disabled)[k][DisabledFlag := Bool(true)] - {DisabledFlag} == Table(c.disabled)[k] - {DisabledFlag}
    {
    }
  }

  /**
   * When `__disabled` holds something other than an object, a per-server-disabled source's
   * flagged entries are removed from `mcpServers` and written nowhere.
   */
  lemma FlaggedEntriesLostWithoutDisabledTable(source: ConfigFile, to: Result<ConfigFile>, k: string)
    requires var c := Combine(source, Destination(to), true);
      c.servers.Object? && !c.disabled.Object?
      && k in Table(c.servers) && DisabledFlag in Table(c.servers)[k] && Table(c.servers)[k][DisabledFlag] == Bool(true)
    ensures var r := Sync(Ok(source), to, PerServer, Plain, true).value;
      k !in Names(r.servers) && k !in Names(r.disabled)
  {
  }
}

=== FILE: onboarding.dfy ===
/**
 * The decision taken when the authentication state changes to SIGNED_IN: request a student
 * upgrade, start a trial, or do nothing. The backend calls' outcomes are inputs, and the result
 * is the sequence of calls and success toasts. Every error is caught, so there is no error result.
 */
module Onboarding {
  import opened Wrappers
  import opened Text

  /** The fields of the current user that the handler reads. */
  datatype AuthUser = AuthUser(tier: Option<string>, trialActive: bool, isStudent: bool, email: Option<string>)

  /** The backend calls, in the order they are awaited, and the success toasts between them. */
  datatype Call = UpgradeStudent | StartTrial | FetchUser | Toast(text: string)

  const StudentToast := "\U{1F393} Student account activated! You now have free access to all local features."
  const TrialToast := "Trial started! Enjoy your 14-day access."

  /** Whether the upgrade call resolves, whether the profile refresh after it resolves, and whether the trial call resolves. */
  datatype Outcomes = Outcomes(upgradeOk: bool, refreshAfterUpgradeOk: bool, trialOk: bool)

  const NoUser := AuthUser(None, false, false, None)

  /** `user?.tier?.toUpperCase?.()`. */
  function TierOf(u: AuthUser): Option<string> {
    if u.tier.Some? then Some(Upper(u.tier.value)) else None
  }

  /** A missing tier is not "FREE", so it counts as paid. */
  predicate IsPaid(u: AuthUser) {
    TierOf(u) != Some("FREE")
  }

  /** The email, lower-cased, ends in ".edu"; a missing email is "". */
  predicate IsEduEmail(u: AuthUser) {
    EndsWith(Lower(u.email.GetOr("")), ".edu")
  }

  predicate WantsStudentUpgrade(u: AuthUser) {
    IsEduEmail(u) && TierOf(u) == Some("FREE") && !u.isStudent
  }

  /** Requesting the upgrade; when it resolves, its toast and then the profile refresh. */
  function UpgradeCalls(io: Outcomes): seq<Call> {
    if io.upgradeOk then [UpgradeStudent, Toast(StudentToast), FetchUser] else [UpgradeStudent]
  }

  /** Starting a trial; when it resolves, its toast and then the profile refresh. */
  function TrialCalls(io: Outcomes): seq<Call> {
    if io.trialOk then [StartTrial, Toast(TrialToast), FetchUser] else [StartTrial]
  }

  /**
   * The SIGNED_IN handler. A failed upgrade, or a failed refresh after a successful upgrade,
   * falls through to the trial when the user has no trial.
   */
  function OnSignedIn(current: Result<Option<AuthUser>>, io: Outcomes): seq<Call> {
    if current.Err? then []
    else
      var u := current.value.GetOr(NoUser);
      if WantsStudentUpgrade(u) then
        if io.upgradeOk && io.refreshAfterUpgradeOk then UpgradeCalls(io)
        else UpgradeCalls(io) + (if !IsPaid(u) && !u.trialActive then TrialCalls(io) else [])
      else if !IsPaid(u) && !u.trialActive && !u.isStudent then TrialCalls(io)
      else []
  }

  function Count(calls: seq<Call>, c: Call): nat {
    if |calls| == 0 then 0 else (if calls[0] == c then 1 else 0) + Count(calls[1..], c)
  }

  lemma {:induction false} CountAppend(a: seq<Call>, b: seq<Call>, c: Call)
    ensures Count(a + b, c) == Count(a, c) + Count(b, c)
  {
    if |a| == 0 {
      assert a + b == b;
    } else {
      assert (a + b)[1..] == a[1..] + b;
      CountAppend(a[1..], b, c);
    }
  }

  /** A request followed by its toast and the refresh counts the request once and nothing else of interest. */
  lemma {:induction false} ThreeCalls(x: Call, t: string, c: Call)
    requires c != FetchUser && !c.Toast?
    ensures Count([x, Toast(t), FetchUser], c) == if x == c then 1 else 0
    ensures Count([x], c) == if x == c then 1 else 0
  {
    var l := [x, Toast(t), FetchUser];
    assert l[1..] == [Toast(t), FetchUser];
    assert l[1..][1..] == [FetchUser];
    assert l[1..][1..][1..] == [];
    assert Count(l[1..][1..], c) == 0;
    assert Count(l[1..], c) == 0;
    assert [x][1..] == [];
  }

  /** The upgrade step requests one upgrade and no trial; the trial step the reverse. */
  lemma StepCounts(io: Outcomes)
    ensures Count(UpgradeCalls(io), UpgradeStudent) == 1 && Count(UpgradeCalls(io), StartTrial) == 0
    ensures Count(TrialCalls(io), StartTrial) == 1 && Count(TrialCalls(io), UpgradeStudent) == 0
  {
    ThreeCalls(UpgradeStudent, StudentToast, UpgradeStudent);
    ThreeCalls(UpgradeStudent, StudentToast, StartTrial);
    ThreeCalls(StartTrial, TrialToast, UpgradeStudent);
    ThreeCalls(StartTrial, TrialToast, StartTrial);
  }

  /** A student upgrade is requested exactly for a .edu, FREE, non-student user. */
  lemma UpgradeRequestedIff(current: Result<Option<AuthUser>>, io: Outcomes)
    ensures UpgradeStudent in OnSignedIn(current, io) <==>
      current.Ok? && WantsStudentUpgrade(current.value.GetOr(NoUser))
  {
  }

  /** A trial is requested only for a FREE user without a trial; a missing tier never triggers one. */
  lemma TrialOnlyForFreeWithoutTrial(current: Result<Option<AuthUser>>, io: Outcomes)
    ensures StartTrial in OnSignedIn(current, io) ==>
      var u := current.value.GetOr(NoUser);
      current.Ok? && TierOf(u) == Some("FREE") && !u.trialActive
    ensures current.Ok? && TierOf(current.value.GetOr(NoUser)).None? ==> StartTrial !in OnSignedIn(current, io)
  {
  }

  /**
   * For a user who qualifies for the upgrade, the trial is a fallback: it is requested after
   * the upgrade, and only when the upgrade or the refresh after it failed and no trial is running.
   */
  lemma TrialIsUpgradeFallback(u: AuthUser, io: Outcomes)
    requires WantsStudentUpgrade(u)
    ensures var calls := OnSignedIn(Ok(Some(u)), io);
      && calls[0] == UpgradeStudent
      && (StartTrial in calls <==> !(io.upgradeOk && io.refreshAfterUpgradeOk) && !u.trialActive)
  {
  }

  /** Existing students and paid users trigger neither an upgrade nor a trial. */
  lemma StudentsAndPaidUsersUntouched(u: AuthUser, io: Outcomes)
    requires u.isStudent || IsPaid(u)
    ensures OnSignedIn(Ok(Some(u)), io) == []
  {
  }

  /** At most one upgrade and at most one trial are requested per sign-in. */
  lemma AtMostOneRequestEach(current: Result<Option<AuthUser>>, io: Outcomes)
    ensures Count(OnSignedIn(current, io), StartTrial) <= 1
    ensures Count(OnSignedIn(current, io), UpgradeStudent) <= 1
  {
    StepCounts(io);
    if current.Ok? {
      var u := current.value.GetOr(NoUser);
      if WantsStudentUpgrade(u) && !(io.upgradeOk && io.refreshAfterUpgradeOk) {
        var rest := if !IsPaid(u) && !u.trialActive then TrialCalls(io) else [];
        CountAppend(UpgradeCalls(io), rest, StartTrial);
        CountAppend(UpgradeCalls(io), rest, UpgradeStudent);
      }
    }
  }

  /**
   * A success toast is shown exactly after a request that resolved: the student toast after a
   * resolved upgrade, the trial toast after a resolved trial request, and each at most once.
   */
  lemma ToastsFollowResolvedRequests(current: Result<Option<AuthUser>>, io: Outcomes)
    ensures Toast(StudentToast) in OnSignedIn(current, io) <==>
      UpgradeStudent in OnSignedIn(current, io) && io.upgradeOk
    ensures Toast(TrialToast) in OnSignedIn(current, io) <==>
      StartTrial in OnSignedIn(current, io) && io.trialOk
    ensures forall t :: Toast(t) in OnSignedIn(current, io) ==> t == StudentToast || t == TrialToast
  {
  }
}

=== FILE: save_config.dfy ===
/**
 * Saving a server config from the server dialog: the preconditions, the write to the chosen
 * client and its mirror to "mcplinker", and the upsert into the `myservers` list kept in local
 * storage. Backend outcomes and the stored text's parse are inputs; the result is the list of
 * effects in the order they happen.
 */
module SaveConfig {
  import opened Wrappers
  import opened Json

  /** The fields of the selected catalogue server that the save reads. */
  datatype ServerRef = ServerRef(id: int, name: string)

  datatype SaveRequest = SaveRequest(
    client: string, path: string, currentServer: Option<ServerRef>, serverName: string, config: Value)

  /**
   * The outcomes the save depends on: the primary write's error, if any; the stored `myservers`
   * text; and what that text parses to (`None` when it is not JSON). The mirror write's outcome
   * is not among them, because its failure is caught and nothing reads it.
   */
  datatype SaveIo = SaveIo(primaryError: Option<string>, stored: Option<string>, storedParse: Option<Value>)

  datatype Notice = Success(text: string) | Failure(text: string)

  datatype Effect =
    | AddServer(client: string, path: string, serverName: string, config: Value)
    | IncrementDownloads(serverId: int, client: string, serverName: string)
    | StoreMyServers(list: seq<Value>)
    | CloseDialog
    | Notify(notice: Notice)
    | RemoveDraft

  const MirrorClient := "mcplinker"

  /** The entry stored for a saved server. */
  function NewServer(serverName: string, config: Value): Value {
    Obj([Member("name", Str(serverName)), Member("config", config)])
  }

  /** The result of `findIndex((s) => s.name === name)`: reading `.name` of null or undefined throws. */
  datatype FindResult = Threw | NotFound | At(index: nat)

  predicate NameIs(v: Value, name: string) {
    Prop(v, "name") == Str(name)
  }

  function FindIndex(items: seq<Value>, name: string): (r: FindResult)
    ensures r.At? ==> r.index < |items| && NameIs(items[r.index], name)
  {
    if |items| == 0 then NotFound
    else if Nullish(items[0]) then Threw
    else if NameIs(items[0], name) then At(0)
    else match FindIndex(items[1..], name)
      case At(i) => At(i + 1)
      case other => other
  }

  /** `findIndex` stops at the first entry that matches or throws; every entry before it was scanned. */
  lemma {:induction false} FindIndexSpec(items: seq<Value>, name: string)
    ensures FindIndex(items, name).At? ==> var i := FindIndex(items, name).index;
      i < |items| && NameIs(items[i], name)
      && forall j :: 0 <= j < i ==> !Nullish(items[j]) && !NameIs(items[j], name)
    ensures FindIndex(items, name).NotFound? <==>
      forall j :: 0 <= j < |items| ==> !Nullish(items[j]) && !NameIs(items[j], name)
    ensures FindIndex(items, name).Threw? <==>
      exists i :: 0 <= i < |items| && Nullish(items[i])
        && forall j :: 0 <= j < i ==> !Nullish(items[j]) && !NameIs(items[j], name)
  {
    if |items| > 0 && !Nullish(items[0]) && !NameIs(items[0], name) {
      FindIndexSpec(items[1..], name);
      var r := FindIndex(items[1..], name);
      if r.Threw? {
        var i :| 0 <= i < |items| - 1 && Nullish(items[1..][i])
          && forall j :: 0 <= j < i ==> !Nullish(items[1..][j]) && !NameIs(items[1..][j], name);
        assert Nullish(items[i + 1]);
        assert forall j :: 0 <= j < i + 1 ==> !Nullish(items[j]) && !NameIs(items[j], name) by {
          forall j | 0 <= j < i + 1 ensures !Nullish(items[j]) && !NameIs(items[j], name) {
            if j > 0 { assert items[j] == items[1..][j - 1]; }
          }
        }
      } else {
        forall i | 0 <= i < |items| && Nullish(items[i])
          ensures exists j :: 0 <= j < i && (Nullish(items[j]) || NameIs(items[j], name))
        {
          assert i > 0 && Nullish(items[1..][i - 1]);
          var k :| 0 <= k < i - 1 && (Nullish(items[1..][k]) || NameIs(items[1..][k], name));
          assert items[k + 1] == items[1..][k];
        }
      }
    }
  }

  /**
   * The upsert into the parsed `myservers` value: the first entry with the same name is
   * replaced in place, otherwise the new entry is appended. `None` when the update throws:
   * the value is not an array, or an entry scanned before a match is null or undefined.
   */
  function UpsertMyServers(list: Value, serverName: string, config: Value): Option<seq<Value>> {
    if !list.Arr? then None
    else match FindIndex(list.items, serverName)
      case Threw => None
      case NotFound => Some(list.items + [NewServer(serverName, config)])
      case At(i) => Some(list.items[i := NewServer(serverName, config)])
  }

  /** A successful upsert replaces exactly the first same-named entry, or appends; nothing else changes. */
  lemma UpsertReplacesOrAppends(items: seq<Value>, serverName: string, config: Value)
    ensures var r := UpsertMyServers(Arr(items), serverName, config);
      r.Some? ==>
        || (|r.value| == |items| + 1 && r.value[..|items|] == items && r.value[|items|] == NewServer(serverName, config)
            && forall j :: 0 <= j < |items| ==> !NameIs(items[j], serverName))
        || (exists i :: (0 <= i < |items| && NameIs(items[i], serverName)
              && (forall j :: 0 <= j < i ==> !NameIs(items[j], serverName))
              && r.value == items[i := NewServer(serverName, config)]))
    ensures UpsertMyServers(Arr(items), serverName, config).None? <==>
      exists i :: 0 <= i < |items| && Nullish(items[i])
        && forall j :: 0 <= j < i ==> !Nullish(items[j]) && !NameIs(items[j], serverName)
  {
    FindIndexSpec(items, serverName);
    var r := UpsertMyServers(Arr(items), serverName, config);
    if FindIndex(items, serverName).NotFound? {
      assert r.value[..|items|] == items;
    }
  }

  /**
   * Upserting a name twice is the same as upserting it once with the second config: the second
   * upsert finds and replaces the first upsert's entry, so no duplicate is stored.
   */
  lemma UpsertTwiceReplaces(items: seq<Value>, serverName: string, c1: Value, c2: Value)
    requires UpsertMyServers(Arr(items), serverName, c1).Some?
    ensures var once := UpsertMyServers(Arr(items), serverName, c1).value;
      && UpsertMyServers(Arr(once), serverName, c2) == UpsertMyServers(Arr(items), serverName, c2)
      && |UpsertMyServers(Arr(once), serverName, c2).value| == |once|
  {
    var once := UpsertMyServers(Arr(items), serverName, c1).value;
    FindIndexSpec(items, serverName);
    FindIndexSpec(once, serverName);
    assert NameIs(NewServer(serverName, c1), serverName);
    if FindIndex(items, serverName).NotFound? {
      assert once[|items|] == NewServer(serverName, c1);
      assert forall j :: 0 <= j < |items| ==> once[j] == items[j];
      assert FindIndex(once, serverName) == At(|items|);
      assert once[|items| := NewServer(serverName, c2)] == items + [NewServer(serverName, c2)];
    } else {
      var i := FindIndex(items, serverName).index;
      assert once[i] == NewServer(serverName, c1);
      assert forall j :: 0 <= j < i ==> once[j] == items[j];
      assert FindIndex(once, serverName) == At(i);
      assert once[i := NewServer(serverName, c2)] == items[i := NewServer(serverName, c2)];
    }
  }

  /** The `myservers` value the upsert starts from: a missing or empty stored text is `[]`. */
  function StoredList(io: SaveIo): Option<Value> {
    if io.stored.None? || io.stored.value == "" then Some(Arr([])) else io.storedParse
  }

  /** The `myservers` effect after a successful primary write; any failure in it is caught. */
  function MyServersEffects(serverName: string, config: Value, io: SaveIo): seq<Effect> {
    match StoredList(io)
    case None => []
    case Some(list) =>
      match UpsertMyServers(list, serverName, config)
      case None => []
      case Some(updated) => [StoreMyServers(updated)]
  }

  predicate Allowed(req: SaveRequest) {
    !(req.client == "custom" && req.path == "") && req.currentServer.Some?
  }

  /**
   * `saveServerConfig`. The write uses the catalogue server's name, the `myservers` entry the
   * name typed in the dialog. A failed mirror write is swallowed; a failed primary write is
   * reported and nothing after it happens.
   */
  function SaveServerConfig(req: SaveRequest, io: SaveIo): seq<Effect> {
    if req.client == "custom" && req.path == "" then [Notify(Failure("Path is required"))]
    else if req.currentServer.None? then [Notify(Failure("Please select a server"))]
    else if !Truthy(req.config) then []
    else
      var cs := req.currentServer.value;
      var primary := AddServer(req.client, req.path, cs.name, req.config);
      if io.primaryError.Some? then
        [primary, Notify(Failure("Failed to update configuration: " + io.primaryError.value))]
      else
        [primary, AddServer(MirrorClient, req.path, cs.name, req.config), IncrementDownloads(cs.id, req.client, cs.name)]
        + MyServersEffects(req.serverName, req.config, io)
        + [CloseDialog, Notify(Success("Configuration updated successfully")), RemoveDraft]
  }

  predicate Writes(effects: seq<Effect>) {
    exists i :: 0 <= i < |effects| && effects[i].AddServer?
  }

  /** The "custom" client with no path, or no selected server, writes nothing and says why. */
  lemma BlockedSaveWritesNothing(req: SaveRequest, io: SaveIo)
    requires !Allowed(req)
    ensures !Writes(SaveServerConfig(req, io))
    ensures |SaveServerConfig(req, io)| == 1 && SaveServerConfig(req, io)[0].Notify?
  {
  }

  /** The dialog closes, and the draft is dropped, exactly when the primary write succeeded. */
  lemma DialogClosesIffPrimarySucceeds(req: SaveRequest, io: SaveIo)
    ensures CloseDialog in SaveServerConfig(req, io) <==> Allowed(req) && Truthy(req.config) && io.primaryError.None?
    ensures RemoveDraft in SaveServerConfig(req, io) <==> CloseDialog in SaveServerConfig(req, io)
  {
    var effects := SaveServerConfig(req, io);
    if Allowed(req) && Truthy(req.config) && io.primaryError.None? {
      var k := |effects| - 3;
      assert effects[k] == CloseDialog && effects[k + 2] == RemoveDraft;
    }
  }

  /** A failed primary write makes no further call: no mirror, no download count, no `myservers` update. */
  lemma PrimaryFailureStopsSave(req: SaveRequest, io: SaveIo)
    requires Allowed(req) && Truthy(req.config) && io.primaryError.Some?
    ensures var effects := SaveServerConfig(req, io);
      |effects| == 2 && effects[0] == AddServer(req.client, req.path, req.currentServer.value.name, req.config)
      && effects[1].Notify? && effects[1].notice.Failure?
  {
  }

  /** After a successful save with no stored list, `myservers` holds just the new entry. */
  lemma FirstSaveStoresOneEntry(req: SaveRequest, io: SaveIo)
    requires Allowed(req) && Truthy(req.config) && io.primaryError.None? && io.stored.None?
    ensures StoreMyServers([NewServer(req.serverName, req.config)]) in SaveServerConfig(req, io)
  {
    assert SaveServerConfig(req, io)[3] == StoreMyServers([NewServer(req.serverName, req.config)]);
  }
}

=== FILE: servers_api.dfy ===
/**
 * The client of the server catalogue API: the query string of a listing request, the shape
 * of its result, and the statistics endpoints. The HTTP response is an input.
 */
module ServersApi {
  import opened Wrappers
  import opened Text
  import opened Json

  /** One named parameter; `None` is null or undefined. */
  datatype Param = Param(key: string, value: Option<string>)

  predicate Kept(p: Param) {
    p.value.Some? && p.value.value != ""
  }

  /** `buildQueryParams`: the parameters whose value is neither null, undefined nor "", in order. */
  function BuildQueryParams(params: seq<Param>): (r: seq<(string, string)>)
    ensures forall i :: 0 <= i < |r| ==> r[i].1 != ""
  {
    if |params| == 0 then []
    else
      var head := if Kept(params[0]) then [(params[0].key, params[0].value.value)] else [];
      head + BuildQueryParams(params[1..])
  }

  /** The filter splits over concatenation ... */
  lemma {:induction false} BuildQueryParamsAppend(a: seq<Param>, b: seq<Param>)
    ensures BuildQueryParams(a + b) == BuildQueryParams(a) + BuildQueryParams(b)
  {
    if |a| == 0 {
      assert a + b == b;
    } else {
      assert (a + b)[1..] == a[1..] + b;
      BuildQueryParamsAppend(a[1..], b);
    }
  }

  /** ... and keeps one parameter, unchanged, exactly when its value is set and non-empty. */
  lemma BuildQueryParamsSingle(p: Param)
    ensures BuildQueryParams([p]) == if Kept(p) then [(p.key, p.value.value)] else []
  {
    assert [p][1..] == [];
  }

  /** The listing request's parameters, in the order `fetchServers` names them. */
  function ListingParams(page: int, pageSize: int, categoryId: Option<string>, search: string,
                         sort: string, direction: string, developer: Option<string>): seq<Param> {
    [Param("page", Some(IntToString(page))), Param("page_size", Some(IntToString(pageSize))),
     Param("category_id", categoryId), Param("search", Some(search)), Param("sort", Some(sort)),
     Param("direction", Some(direction)), Param("developer", developer)]
  }

  function FetchParams(page: int, pageSize: int, categoryId: Option<string>, search: string,
                       sort: string, direction: string, developer: Option<string>): seq<(string, string)> {
    BuildQueryParams(ListingParams(page, pageSize, categoryId, search, sort, direction, developer))
  }

  predicate HasParam(qs: seq<(string, string)>, key: string) {
    exists i :: 0 <= i < |qs| && qs[i].0 == key
  }

  /** Some parameter with key `k` has a set, non-empty value. */
  predicate SendsKey(ps: seq<Param>, k: string) {
    exists i :: 0 <= i < |ps| && ps[i].key == k && Kept(ps[i])
  }

  lemma SendsKeyTail(ps: seq<Param>, k: string)
    requires |ps| > 0
    ensures SendsKey(ps, k) <==> (ps[0].key == k && Kept(ps[0])) || SendsKey(ps[1..], k)
  {
    if SendsKey(ps[1..], k) {
      var i :| 0 <= i < |ps| - 1 && ps[1..][i].key == k && Kept(ps[1..][i]);
      assert ps[i + 1] == ps[1..][i];
    }
  }

  lemma HasParamAppend(a: seq<(string, string)>, b: seq<(string, string)>, k: string)
    ensures HasParam(a + b, k) <==> HasParam(a, k) || HasParam(b, k)
  {
    if HasParam(a, k) {
      var j :| 0 <= j < |a| && a[j].0 == k;
      assert (a + b)[j] == a[j];
    }
    if HasParam(b, k) {
      var j :| 0 <= j < |b| && b[j].0 == k;
      assert (a + b)[|a| + j] == b[j];
    }
    if HasParam(a + b, k) {
      var j :| 0 <= j < |a + b| && (a + b)[j].0 == k;
      if j < |a| {
        assert a[j] == (a + b)[j];
      } else {
        assert b[j - |a|] == (a + b)[j];
      }
    }
  }

  /** A key is sent exactly when some parameter with that key has a set, non-empty value. */
  lemma {:induction false} HasParamIff(ps: seq<Param>, k: string)
    ensures HasParam(BuildQueryParams(ps), k) <==> SendsKey(ps, k)
  {
    if |ps| > 0 {
      HasParamIff(ps[1..], k);
      SendsKeyTail(ps, k);
      var head := if Kept(ps[0]) then [(ps[0].key, ps[0].value.value)] else [];
      HasParamAppend(head, BuildQueryParams(ps[1..]), k);
    }
  }

  /** A key that exactly one parameter carries is sent exactly when that parameter is kept. */
  lemma UniqueKeySent(ps: seq<Param>, i: nat, k: string)
    requires i < |ps| && ps[i].key == k
    requires forall j :: 0 <= j < |ps| && j != i ==> ps[j].key != k
    ensures HasParam(BuildQueryParams(ps), k) <==> Kept(ps[i])
  {
    HasParamIff(ps, k);
  }

  /**
   * `page` and `page_size` are always sent, first; each other parameter is sent exactly when it
   * is set and non-empty (`sort` and `direction` have non-empty defaults, but "" drops them too).
   */
  lemma FetchParamsPresence(page: int, pageSize: int, categoryId: Option<string>, search: string,
                            sort: string, direction: string, developer: Option<string>)
    ensures var qs := FetchParams(page, pageSize, categoryId, search, sort, direction, developer);
      && |qs| >= 2
      && qs[0] == ("page", IntToString(page))
      && qs[1] == ("page_size", IntToString(pageSize))
      && (HasParam(qs, "category_id") <==> categoryId.Some? && categoryId.value != "")
      && (HasParam(qs, "search") <==> search != "")
      && (HasParam(qs, "sort") <==> sort != "")
      && (HasParam(qs, "direction") <==> direction != "")
      && (HasParam(qs, "developer") <==> developer.Some? && developer.value != "")
  {
    var ps := ListingParams(page, pageSize, categoryId, search, sort, direction, developer);
    IntToStringNonEmpty(page);
    IntToStringNonEmpty(pageSize);
    assert ps[1..][1..] == ps[2..];
    assert BuildQueryParams(ps) == [(ps[0].key, ps[0].value.value), (ps[1].key, ps[1].value.value)] + BuildQueryParams(ps[2..]);
    UniqueKeySent(ps, 2, "category_id");
    UniqueKeySent(ps, 3, "search");
    UniqueKeySent(ps, 4, "sort");
    UniqueKeySent(ps, 5, "direction");
    UniqueKeySent(ps, 6, "developer");
  }

  /**
   * `fetchServers()` with every argument left to its default: page 1 of 10, no category, no
   * search, sorted by `github_stars` descending, no developer.
   */
  function DefaultFetchParams(): seq<(string, string)> {
    FetchParams(1, 10, None, "", "github_stars", "desc", None)
  }

  /** The default call sends exactly the page, the page size and the sort, in that order. */
  lemma DefaultFetchParamsValue()
    ensures DefaultFetchParams() ==
      [("page", "1"), ("page_size", "10"), ("sort", "github_stars"), ("direction", "desc")]
  {
    assert IntToString(1) == "1";
    assert IntToString(10) == "10";
    var ps := ListingParams(1, 10, None, "", "github_stars", "desc", None);
    assert ps[1..][1..] == ps[2..];
    assert ps[2..][1..] == ps[3..];
    assert ps[3..][1..] == ps[4..];
    assert ps[4..][1..] == ps[5..];
    assert ps[5..][1..] == ps[6..];
    assert ps[6..][1..] == [];
  }

  /** `x || fallback`. */
  function Or(v: Value, fallback: Value): Value {
    if Truthy(v) then v else fallback
  }

  /** The defaults a listing result always carries. */
  const EmptyListing: seq<Member> := [Member("servers", Arr([])), Member("hasNext", Bool(false)), Member("total", Num(0))]

  /**
   * The listing result: on success the defaulted fields followed by every field of the
   * response body; on failure the empty listing and an error notice. Nothing is thrown.
   */
  function ListingResult(response: Result<Value>): (r: (seq<Member>, Option<string>))
    ensures response.Err? ==> r == (EmptyListing, Some("Failed to fetch servers: " + response.error))
    ensures response.Ok? ==> r.1.None?
  {
    match response
    case Err(msg) => (EmptyListing, Some("Failed to fetch servers: " + msg))
    case Ok(data) =>
      (Spread(Base(data), Entries(data)), None)
  }

  function Default(k: string): Value {
    if k == "servers" then Arr([]) else if k == "hasNext" then Bool(false) else Num(0)
  }

  predicate IsListingKey(k: string) {
    k == "servers" || k == "hasNext" || k == "total"
  }

  function Base(data: Value): seq<Member> {
    [Member("servers", Or(Prop(data, "servers"), Arr([]))),
     Member("hasNext", Or(Prop(data, "hasNext"), Bool(false))),
     Member("total", Or(Prop(data, "total"), Num(0)))]
  }

  lemma BaseFields(data: Value, k: string)
    ensures HasKey(Base(data), k) <==> IsListingKey(k)
    ensures IsListingKey(k) && !HasKey(Entries(data), k) ==> Get(Base(data), k) == Default(k)
  {
    var b := Base(data);
    assert b[0].key == "servers" && b[1].key == "hasNext" && b[2].key == "total";
    if HasKey(b, k) {
      var i :| 0 <= i < |b| && b[i].key == k;
      assert IsListingKey(k);
    }
    if IsListingKey(k) {
      var i := if k == "servers" then 0 else if k == "hasNext" then 1 else 2;
      assert b[i].key == k;
    }
    if IsListingKey(k) && !HasKey(Entries(data), k) {
      if data.Obj? {
        HasKeyGet(data.members, k);
      }
      assert Prop(data, k) == Undefined;
      assert b[1..][1..] == [b[2]];
      if k == "servers" {
        assert Get(b, k) == Or(Undefined, Arr([]));
      } else if k == "hasNext" {
        assert Get(b, k) == Get(b[1..], k) == Or(Undefined, Bool(false));
      } else {
        assert Get(b, k) == Get(b[1..], k) == Get(b[1..][1..], k) == Or(Undefined, Num(0));
      }
    }
  }

  /**
   * Each of `servers`, `hasNext` and `total` is the body's own value when the body has that key,
   * and the default otherwise; every other field of the body is carried over unchanged, and the
   * result has no other field.
   */
  lemma ListingResultField(data: Value, k: string)
    requires DistinctKeys(Entries(data))
    ensures var r := ListingResult(Ok(data)).0;
      && Get(r, k) == (if HasKey(Entries(data), k) then Get(Entries(data), k)
                       else if IsListingKey(k) then Default(k) else Undefined)
      && (HasKey(r, k) <==> IsListingKey(k) || HasKey(Entries(data), k))
  {
    assert ListingResult(Ok(data)).0 == Spread(Base(data), Entries(data));
    SpreadGet(Base(data), Entries(data), k);
    BaseFields(data, k);
    HasKeyGet(Base(data), k);
  }

  /** A body that carries `servers: null` keeps it: the default applies only to a missing key. */
  lemma PresentNullOverridesDefault()
    ensures Get(ListingResult(Ok(Obj([Member("servers", Null)]))).0, "servers") == Null
  {
    assert [Member("servers", Null)][0].key == "servers";
    ListingResultField(Obj([Member("servers", Null)]), "servers");
  }

  /**
   * `updateServerStats`: the endpoint posted to; a failed post is caught and only logged.
   * The segment between `/servers/` and the statistic's path reads back as the server id.
   */
  function StatsEndpoint(path: string, serverId: int): (url: string)
    ensures |url| > |"/servers/"| + |path|
    ensures url[..9] == "/servers/" && url[|url| - |path|..] == path
    ensures ParseInt(url[9..|url| - |path|]) == Some(serverId)
  {
    ParseIntRoundTrip(serverId);
    var url := "/servers/" + IntToString(serverId) + path;
    assert url[9..|url| - |path|] == IntToString(serverId);
    url
  }

  /** Different servers never share a statistics endpoint. */
  lemma StatsEndpointInjective(path: string, a: int, b: int)
    ensures StatsEndpoint(path, a) == StatsEndpoint(path, b) <==> a == b
  {
  }

  function IncrementViews(serverId: int): string {
    StatsEndpoint("/views", serverId)
  }

  function IncrementDownloads(serverId: int): string {
    StatsEndpoint("/downloads", serverId)
  }

  /** The two counters post to different endpoints of the same server. */
  lemma ViewsAndDownloadsDiffer(serverId: int)
    ensures IncrementViews(serverId) != IncrementDownloads(serverId)
    ensures EndsWith(IncrementViews(serverId), "/views") && EndsWith(IncrementDownloads(serverId), "/downloads")
  {
    var v := IncrementViews(serverId);
    var d := IncrementDownloads(serverId);
    assert v[|v| - 1] == 's' && d[|d| - 1] == 's';
    assert v[|v| - 2] == 'w' && d[|d| - 2] == 'd';
  }
}

=== FILE: settings_store.dfy ===
/** The persisted application settings and their update actions, as pure state transitions. */
module SettingsStore {
  datatype Settings = Settings(
    excludeFolders: seq<string>,
    activeSection: string,
    autoCommitGitWorktree: bool,
    enableTaskCompleteBeep: bool,
    preventSleepDuringTasks: bool)

  const DefaultExcludeFolders: seq<string> := [
    ".git", "node_modules", ".venv", "__pycache__", ".next", ".nuxt",
    "dist", "build", ".DS_Store", "target", ".cargo"
  ]

  const Defaults := Settings(DefaultExcludeFolders, "promptOptimizer", true, true, true)

  /** `addExcludeFolder`: appended at the end, even when already present. */
  function AddExcludeFolder(s: Settings, folder: string): (r: Settings)
    ensures |r.excludeFolders| == |s.excludeFolders| + 1
    ensures r.excludeFolders[..|s.excludeFolders|] == s.excludeFolders
    ensures r.excludeFolders[|s.excludeFolders|] == folder
    ensures r.(excludeFolders := s.excludeFolders) == s
  {
    s.(excludeFolders := s.excludeFolders + [folder])
  }

  /** `xs.filter((f) => f !== folder)`. */
  function Without(xs: seq<string>, folder: string): (r: seq<string>)
    ensures folder !in r
    ensures forall f :: f in r <==> f in xs && f != folder
    ensures |r| <= |xs|
  {
    if |xs| == 0 then []
    else if xs[0] == folder then Without(xs[1..], folder)
    else [xs[0]] + Without(xs[1..], folder)
  }

  /** `removeExcludeFolder`: every occurrence goes, the others keep their order. */
  function RemoveExcludeFolder(s: Settings, folder: string): (r: Settings)
    ensures folder !in r.excludeFolders
    ensures forall f :: f in r.excludeFolders <==> f in s.excludeFolders && f != folder
    ensures r.(excludeFolders := s.excludeFolders) == s
  {
    s.(excludeFolders := Without(s.excludeFolders, folder))
  }

  /** The filter splits over concatenation, so the remaining folders keep their relative order. */
  lemma {:induction false} WithoutAppend(a: seq<string>, b: seq<string>, folder: string)
    ensures Without(a + b, folder) == Without(a, folder) + Without(b, folder)
  {
    if |a| == 0 {
      assert a + b == b;
    } else {
      assert (a + b)[1..] == a[1..] + b;
      WithoutAppend(a[1..], b, folder);
    }
  }

  /** Removing a folder that is not listed changes nothing. */
  lemma {:induction false} WithoutAbsent(xs: seq<string>, folder: string)
    requires folder !in xs
    ensures Without(xs, folder) == xs
  {
    if |xs| > 0 {
      WithoutAbsent(xs[1..], folder);
    }
  }

  /** Adding a folder that was not listed and then removing it restores the settings. */
  lemma AddThenRemoveRestores(s: Settings, folder: string)
    requires folder !in s.excludeFolders
    ensures RemoveExcludeFolder(AddExcludeFolder(s, folder), folder) == s
  {
    WithoutAppend(s.excludeFolders, [folder], folder);
    WithoutAbsent(s.excludeFolders, folder);
    assert Without([folder], folder) == [];
  }

  /** Removing twice is removing once. */
  lemma RemoveIdempotent(s: Settings, folder: string)
    ensures RemoveExcludeFolder(RemoveExcludeFolder(s, folder), folder) == RemoveExcludeFolder(s, folder)
  {
    WithoutAbsent(Without(s.excludeFolders, folder), folder);
  }

  function SetExcludeFolders(s: Settings, folders: seq<string>): Settings {
    s.(excludeFolders := folders)
  }

  function SetActiveSection(s: Settings, section: string): Settings {
    s.(activeSection := section)
  }

  function SetAutoCommitGitWorktree(s: Settings, enabled: bool): Settings {
    s.(autoCommitGitWorktree := enabled)
  }

  function SetEnableTaskCompleteBeep(s: Settings, enabled: bool): Settings {
    s.(enableTaskCompleteBeep := enabled)
  }

  function SetPreventSleepDuringTasks(s: Settings, enabled: bool): Settings {
    s.(preventSleepDuringTasks := enabled)
  }

  /** Each setter replaces its own field, and setters of different fields commute. */
  lemma SettersAreIndependent(s: Settings, folders: seq<string>, section: string, a: bool, b: bool, c: bool)
    ensures SetExcludeFolders(s, folders).excludeFolders == folders
    ensures SetActiveSection(SetExcludeFolders(s, folders), section) == SetExcludeFolders(SetActiveSection(s, section), folders)
    ensures var t := SetPreventSleepDuringTasks(SetEnableTaskCompleteBeep(SetAutoCommitGitWorktree(s, a), b), c);
      t == Settings(s.excludeFolders, s.activeSection, a, b, c)
  {
  }

  /** The defaults exclude eleven distinct folders, `.git` and `node_modules` among them. */
  lemma DefaultsShape()
    ensures |Defaults.excludeFolders| == 11
    ensures forall i, j :: 0 <= i < j < 11 ==> Defaults.excludeFolders[i] != Defaults.excludeFolders[j]
    ensures ".git" in Defaults.excludeFolders && "node_modules" in Defaults.excludeFolders
  {
  }
}

=== FILE: template_dialog.dfy ===
/**
 * The field handlers of the server template dialog. The config being edited is an object;
 * each handler returns the next config.
 */
module TemplateDialog {
  import opened Text
  import opened Json

  /** The config the dialog starts from. */
  const ConfigTemplate: seq<Member> := [
    Member("command", Str("")),
    Member("args", Arr([])),
    Member("env", Obj([])),
    Member("headers", Obj([])),
    Member("url", Str("http://localhost:8000/sse"))
  ]

  /** The argument list typed as text: split on single spaces, empty tokens dropped. */
  function Tokens(value: string): (ts: seq<string>)
    ensures forall i :: 0 <= i < |ts| ==> ts[i] != "" && ' ' !in ts[i]
  {
    var pieces := Split(value, ' ');
    assert forall x :: x in pieces ==> ' ' !in x;
    RemoveEmpty(pieces)
  }

  function ArgsValue(ts: seq<string>): Value {
    Arr(seq(|ts|, i requires 0 <= i < |ts| => Str(ts[i])))
  }

  /**
   * Any argument list whose tokens are non-empty and free of spaces is read back from its
   * space-joined text, so `Tokens` inverts a join with single spaces and loses nothing else.
   */
  lemma TokensOfJoin(ts: seq<string>)
    requires forall i :: 0 <= i < |ts| ==> ts[i] != "" && ' ' !in ts[i]
    ensures Tokens(Join(ts, " ")) == ts
  {
    if |ts| == 0 {
      assert Split("", ' ') == [""];
      assert RemoveEmpty([""]) == RemoveEmpty([""][1..]);
    } else {
      assert " " == [' '];
      SplitJoin(ts, ' ');
    }
  }

  /** Re-tokenising the space-joined arguments gives the same arguments back. */
  lemma TokensRoundTrip(value: string)
    ensures Tokens(Join(Tokens(value), " ")) == Tokens(value)
  {
    TokensOfJoin(Tokens(value));
  }

  /**
   * `handleArgsChange`: the config is replaced only when the tokens differ from the current
   * `args` (compared through `JSON.stringify`, which on a list of strings is equality).
   */
  function HandleArgsChange(config: seq<Member>, value: string): seq<Member> {
    var args := ArgsValue(Tokens(value));
    if Get(config, "args") == args then config else With(config, "args", args)
  }

  /** After an args edit the config holds the typed tokens as `args` and nothing else differs; an unchanged list keeps the very same config. */
  lemma ArgsChangeSetsArgs(config: seq<Member>, value: string)
    requires DistinctKeys(config)
    ensures Get(HandleArgsChange(config, value), "args") == ArgsValue(Tokens(value))
    ensures forall k :: k != "args" ==> Get(HandleArgsChange(config, value), k) == Get(config, k)
    ensures Get(config, "args") == ArgsValue(Tokens(value)) ==> HandleArgsChange(config, value) == config
  {
    WithGet(config, "args", ArgsValue(Tokens(value)));
  }

  function HandleCommandChange(config: seq<Member>, value: string): seq<Member> {
    With(config, "command", Str(value))
  }

  function HandleUrl(config: seq<Member>, value: string): seq<Member> {
    With(config, "url", Str(value))
  }

  /** A command or url edit sets that field and changes no other. */
  lemma CommandAndUrlEditsAreLocal(config: seq<Member>, value: string)
    requires DistinctKeys(config)
    ensures Get(HandleCommandChange(config, value), "command") == Str(value)
    ensures forall k :: k != "command" ==> Get(HandleCommandChange(config, value), k) == Get(config, k)
    ensures Get(HandleUrl(config, value), "url") == Str(value)
    ensures forall k :: k != "url" ==> Get(HandleUrl(config, value), k) == Get(config, k)
  {
    WithGet(config, "command", Str(value));
    WithGet(config, "url", Str(value));
  }

  /** `{...config, [field]: {...config[field], [key]: value}}`: the shape of the env and header edits. */
  function SetNested(config: seq<Member>, field: string, key: string, value: string): seq<Member> {
    With(config, field, Obj(With(Entries(Get(config, field)), key, Str(value))))
  }

  function HandleEnvChange(config: seq<Member>, key: string, value: string): seq<Member> {
    SetNested(config, "env", key, value)
  }

  function HandleHeaderChange(config: seq<Member>, key: string, value: string): seq<Member> {
    SetNested(config, "headers", key, value)
  }

  /** A nested edit sets one key of the field's object, keeps that object's other keys, and keeps every other field. */
  lemma NestedEditSetsOneKey(config: seq<Member>, field: string, key: string, value: string)
    requires DistinctKeys(config) && DistinctKeys(Entries(Get(config, field)))
    ensures var inner := Get(SetNested(config, field, key, value), field);
      && inner.Obj?
      && Get(inner.members, key) == Str(value)
      && (forall j :: j != key ==> Get(inner.members, j) == Get(Entries(Get(config, field)), j))
    ensures forall k :: k != field ==> Get(SetNested(config, field, key, value), k) == Get(config, k)
  {
    var inner := With(Entries(Get(config, field)), key, Str(value));
    WithGet(Entries(Get(config, field)), key, Str(value));
    WithGet(config, field, Obj(inner));
  }

  /** The env edit and the header edit each touch only their own object. */
  lemma EnvAndHeaderEditsAreLocal(config: seq<Member>, key: string, value: string)
    requires DistinctKeys(config)
    requires DistinctKeys(Entries(Get(config, "env"))) && DistinctKeys(Entries(Get(config, "headers")))
    ensures Prop(Get(HandleEnvChange(config, key, value), "env"), key) == Str(value)
    ensures Get(HandleEnvChange(config, key, value), "headers") == Get(config, "headers")
    ensures Prop(Get(HandleHeaderChange(config, key, value), "headers"), key) == Str(value)
    ensures Get(HandleHeaderChange(config, key, value), "env") == Get(config, "env")
  {
    NestedEditSetsOneKey(config, "env", key, value);
    NestedEditSetsOneKey(config, "headers", key, value);
  }
}

=== FILE: template_logic.dfy ===
/**
 * The add-server dialog's JSON handling: finding server configs in JSON blocks taken from a
 * README, taking the first server out of a pasted `mcpServers` object, and re-reading the
 * edited JSON text when it loses focus. Parsing and fetching are inputs.
 */
module TemplateLogic {
  import opened Wrappers
  import opened Text
  import opened Json

  /** A server config found in a JSON block, with the key it sat under ("" at the root). */
  datatype Found = Found(serverName: string, obj: Value)

  /** A value the dialog accepts as a server config: an object with a `command` or `url` key. */
  predicate IsServerConfig(v: Value) {
    v.Obj? && (HasKey(v.members, "command") || HasKey(v.members, "url"))
  }

  /** The qualifying members of an `mcpServers` object, in key order, tagged with their key. */
  function Scan(ms: seq<Member>): (r: seq<Found>)
    ensures forall f :: f in r ==> IsServerConfig(f.obj)
    ensures forall f :: f in r ==> Member(f.serverName, f.obj) in ms
    ensures |r| <= |ms|
  {
    if |ms| == 0 then []
    else
      var head := if IsServerConfig(ms[0].val) then [Found(ms[0].key, ms[0].val)] else [];
      head + Scan(ms[1..])
  }

  /** Every member that is a server config is found, under its own key. */
  lemma {:induction false} ScanComplete(ms: seq<Member>)
    ensures forall m :: m in ms && IsServerConfig(m.val) ==> Found(m.key, m.val) in Scan(ms)
  {
    if |ms| > 0 {
      ScanComplete(ms[1..]);
      forall m | m in ms && IsServerConfig(m.val)
        ensures Found(m.key, m.val) in Scan(ms)
      {
        if m != ms[0] {
          assert m in ms[1..];
        }
      }
    }
  }

  /** Scanning splits over concatenation ... */
  lemma {:induction false} ScanAppend(a: seq<Member>, b: seq<Member>)
    ensures Scan(a + b) == Scan(a) + Scan(b)
  {
    if |a| == 0 {
      assert a + b == b;
    } else {
      var ab := a + b;
      assert ab[0] == a[0];
      assert ab[1..] == a[1..] + b;
      ScanAppend(a[1..], b);
      var head := if IsServerConfig(a[0].val) then [Found(a[0].key, a[0].val)] else [];
      calc {
        Scan(ab);
        head + Scan(a[1..] + b);
        head + (Scan(a[1..]) + Scan(b));
        (head + Scan(a[1..])) + Scan(b);
      }
    }
  }

  /** ... and keeps a single member exactly when it is a server config, so it is the order-preserving filter. */
  lemma ScanSingle(m: Member)
    ensures Scan([m]) == if IsServerConfig(m.val) then [Found(m.key, m.val)] else []
  {
    assert [m][1..] == [];
  }

  /**
   * `findCommandOrUrlObjectsSimple`: the server configs under an `mcpServers` object (or
   * array), or else the root itself when it is a server config, or nothing.
   */
  function FindCommandOrUrl(obj: Value): (r: seq<Found>)
    ensures !IsObjectLike(obj) ==> r == []
    ensures forall f :: f in r ==> IsServerConfig(f.obj)
    ensures IsObjectLike(Prop(obj, "mcpServers")) ==>
      && (forall f :: f in r ==> Member(f.serverName, f.obj) in Entries(Prop(obj, "mcpServers")))
      && (forall m :: m in Entries(Prop(obj, "mcpServers")) && IsServerConfig(m.val) ==> Found(m.key, m.val) in r)
      && r == Scan(Entries(Prop(obj, "mcpServers")))
    ensures !IsObjectLike(Prop(obj, "mcpServers")) ==>
      (r == [Found("", obj)] <==> IsServerConfig(obj)) && (r == [] <==> !IsServerConfig(obj))
  {
    var servers := Prop(obj, "mcpServers");
    ScanComplete(Entries(servers));
    if IsObjectLike(obj) && Truthy(servers) && IsObjectLike(servers) then Scan(Entries(servers))
    else if IsServerConfig(obj) then [Found("", obj)]
    else []
  }

  /**
   * A root-level server config is ignored once `mcpServers` is an object or an array; an array's
   * elements are scanned under their index keys "0", "1", ...
   */
  lemma ServersObjectShadowsRoot(obj: Value)
    requires IsObjectLike(Prop(obj, "mcpServers"))
    ensures FindCommandOrUrl(obj) == Scan(Entries(Prop(obj, "mcpServers")))
    ensures Prop(obj, "mcpServers").Arr? ==>
      var items := Prop(obj, "mcpServers").items;
      |FindCommandOrUrl(obj)| <= |items| &&
      forall i :: 0 <= i < |items| && IsServerConfig(items[i]) ==>
        Found(NatToString(i), items[i]) in FindCommandOrUrl(obj)
  {
    var servers := Prop(obj, "mcpServers");
    if servers.Arr? {
      var es := Entries(servers);
      forall i | 0 <= i < |servers.items| && IsServerConfig(servers.items[i])
        ensures Found(NatToString(i), servers.items[i]) in FindCommandOrUrl(obj)
      {
        assert es[i] == Member(NatToString(i), servers.items[i]);
      }
    }
  }

  /** The configs found in README blocks, block by block. */
  function FoundInBlocks(blocks: seq<Value>): seq<Found> {
    if |blocks| == 0 then [] else FindCommandOrUrl(blocks[0]) + FoundInBlocks(blocks[1..])
  }

  /** Loading concatenates per-block results in block order. */
  lemma {:induction false} FoundInBlocksAppend(a: seq<Value>, b: seq<Value>)
    ensures FoundInBlocks(a + b) == FoundInBlocks(a) + FoundInBlocks(b)
  {
    if |a| == 0 {
      assert a + b == b;
    } else {
      assert (a + b)[1..] == a[1..] + b;
      FoundInBlocksAppend(a[1..], b);
    }
  }

  datatype Notice = Success(text: string) | Failure(text: string)

  /**
   * Loading from a README: a non-empty list of blocks replaces the found list; otherwise
   * the list stays as it was and the fetch error, or a fixed message, is reported.
   */
  function LoadFromGithub(blocks: Option<seq<Value>>, fetchError: Option<string>, previous: seq<Found>): (r: (seq<Found>, Notice))
    ensures blocks.Some? && |blocks.value| > 0 ==> r.0 == FoundInBlocks(blocks.value)
    ensures !(blocks.Some? && |blocks.value| > 0) ==> r.0 == previous && r.1.Failure?
    ensures r.1.Success? <==> blocks.Some? && |FoundInBlocks(blocks.value)| > 0
  {
    if blocks.Some? && |blocks.value| > 0 then
      var found := FoundInBlocks(blocks.value);
      if |found| > 0 then (found, Success("Loaded " + NatToString(|found|) + " config object(s) from README"))
      else (found, Failure("No valid config objects with 'command' or 'url' found"))
    else if fetchError.Some? && fetchError.value != "" then (previous, Failure(fetchError.value))
    else (previous, Failure("No JSON blocks found in README"))
  }

  /** The dialog state that the JSON handlers write; a name of `None` is `undefined`. */
  datatype TemplateState = TemplateState(serverName: Option<string>, config: Value, envValues: Value)

  /**
   * `commonParse`: with a truthy `mcpServers`, the first entry becomes the config and its key
   * the name, then its `env` is read, which throws when that config is null or undefined
   * (after the first two updates); otherwise the whole value becomes the config. Reading
   * `mcpServers` of null or undefined throws before any update. A truthy `mcpServers` with no
   * keys (`{}`, `[]`, `5`, `true`) sets both to `undefined` and then throws. The flag reports the throw.
   */
  function CommonParse(parsed: Value, st: TemplateState): (r: (TemplateState, bool))
    ensures Nullish(parsed) ==> r == (st, true)
    ensures !Nullish(parsed) && !Truthy(Prop(parsed, "mcpServers")) ==>
      r == (st.(config := parsed), false)
    ensures var es := Entries(Prop(parsed, "mcpServers"));
      Truthy(Prop(parsed, "mcpServers")) && |es| > 0 ==>
        && r.0.serverName == Some(es[0].key)
        && r.0.config == es[0].val
        && (r.1 <==> Nullish(es[0].val))
        && (!r.1 ==> r.0.envValues == Prop(es[0].val, "env"))
        && (r.1 ==> r.0.envValues == st.envValues)
    ensures var es := Entries(Prop(parsed, "mcpServers"));
      Truthy(Prop(parsed, "mcpServers")) && |es| == 0 ==>
        r == (st.(config := Undefined, serverName := None), true)
  {
    if Nullish(parsed) then (st, true)
    else
      var servers := Prop(parsed, "mcpServers");
      if Truthy(servers) then
        var es := Entries(servers);
        var name := if |es| > 0 then Some(es[0].key) else None;
        var first := if |es| > 0 then es[0].val else Undefined;
        var named := st.(config := first, serverName := name);
        if Nullish(first) then (named, true) else (named.(envValues := Prop(first, "env")), false)
      else (st.(config := parsed), false)
  }

  /** A pasted value with an empty `mcpServers` object leaves the config `undefined` and then throws. */
  lemma EmptyServersClearsConfig(st: TemplateState)
    ensures var parsed := Obj([Member("mcpServers", Obj([]))]);
      CommonParse(parsed, st) == (st.(config := Undefined, serverName := None), true)
  {
  }

  /** Leaving the JSON text area: valid JSON replaces the config, invalid JSON changes nothing. */
  function JsonBlur(parsed: Option<Value>, st: TemplateState): (r: (TemplateState, Option<Notice>))
    ensures parsed.None? ==> r.0 == st && r.1 == Some(Failure("Invalid JSON format"))
    ensures parsed.Some? ==> r.0 == st.(config := parsed.value) && r.1.None?
  {
    if parsed.None? then (st, Some(Failure("Invalid JSON format")))
    else (st.(config := parsed.value), None)
  }
}

=== FILE: text.dfy ===
/** String helpers with the semantics of the JavaScript string methods the application uses. */
module Text {
  import opened Wrappers


  /** `String.prototype.toUpperCase` restricted to ASCII letters. */
  function UpperChar(c: char): char {
    if 'a' <= c <= 'z' then (c as int - 32) as char else c
  }

  /** `String.prototype.toLowerCase` restricted to ASCII letters. */
  function LowerChar(c: char): char {
    if 'A' <= c <= 'Z' then (c as int + 32) as char else c
  }

  function Upper(s: string): (r: string)
    ensures |r| == |s|
  {
    seq(|s|, i requires 0 <= i < |s| => UpperChar(s[i]))
  }

  function Lower(s: string): (r: string)
    ensures |r| == |s|
  {
    seq(|s|, i requires 0 <= i < |s| => LowerChar(s[i]))
  }

  /** `s.endsWith(suffix)`. */
  predicate EndsWith(s: string, suffix: string) {
    |suffix| <= |s| && s[|s| - |suffix|..] == suffix
  }

  /** The characters `String.prototype.trim` removes: ECMAScript WhiteSpace and LineTerminator. */
  predicate IsWhitespace(c: char) {
    var n := c as int;
    n == 0x09 || n == 0x0A || n == 0x0B || n == 0x0C || n == 0x0D || n == 0x20
    || n == 0xA0 || n == 0x1680 || (0x2000 <= n <= 0x200A) || n == 0x2028 || n == 0x2029
    || n == 0x202F || n == 0x205F || n == 0x3000 || n == 0xFEFF
  }

  function TrimStart(s: string): string {
    if |s| > 0 && IsWhitespace(s[0]) then TrimStart(s[1..]) else s
  }

  function TrimEnd(s: string): string {
    if |s| > 0 && IsWhitespace(s[|s| - 1]) then TrimEnd(s[..|s| - 1]) else s
  }

  /** `s.trim()`. */
  function Trim(s: string): string {
    TrimEnd(TrimStart(s))
  }

  predicate AllWhitespace(s: string) {
    forall i :: 0 <= i < |s| ==> IsWhitespace(s[i])
  }

  lemma {:induction false} TrimStartEmpty(s: string)
    ensures TrimStart(s) == "" <==> AllWhitespace(s)
  {
    if |s| > 0 && IsWhitespace(s[0]) {
      TrimStartEmpty(s[1..]);
      if AllWhitespace(s[1..]) {
        forall i | 0 <= i < |s| ensures IsWhitespace(s[i]) {
          if i > 0 { assert s[i] == s[1..][i - 1]; }
        }
      }
      if AllWhitespace(s) {
        forall i | 0 <= i < |s| - 1 ensures IsWhitespace(s[1..][i]) {
          assert s[1..][i] == s[i + 1];
        }
      }
    }
  }

  /** Trimming leaves nothing exactly when every character is whitespace. */
  lemma TrimEmptyIffBlank(s: string)
    ensures Trim(s) == "" <==> AllWhitespace(s)
  {
    TrimStartEmpty(s);
    var t := TrimStart(s);
    if t != "" {
      TrimStartHead(s);
      TrimEndKeepsNonBlankHead(t);
    }
  }

  lemma {:induction false} TrimStartHead(s: string)
    requires TrimStart(s) != ""
    ensures !IsWhitespace(TrimStart(s)[0])
  {
    if |s| > 0 && IsWhitespace(s[0]) {
      TrimStartHead(s[1..]);
    }
  }

  lemma {:induction false} TrimEndKeepsNonBlankHead(t: string)
    requires |t| > 0 && !IsWhitespace(t[0])
    ensures TrimEnd(t) != ""
  {
    if IsWhitespace(t[|t| - 1]) {
      assert |t| > 1;
      TrimEndKeepsNonBlankHead(t[..|t| - 1]);
    }
  }

  /** `s.split(sep)` for a one-character separator: the pieces between separators, always at least one. */
  function Split(s: string, sep: char): (pieces: seq<string>)
    ensures |pieces| >= 1
    ensures forall i :: 0 <= i < |pieces| ==> sep !in pieces[i]
    decreases |s|
  {
    if |s| == 0 then [""]
    else if s[0] == sep then [""] + Split(s[1..], sep)
    else
      var rest := Split(s[1..], sep);
      [[s[0]] + rest[0]] + rest[1..]
  }

  /** `xs.filter((x) => x !== "")`. */
  function RemoveEmpty(xs: seq<string>): (r: seq<string>)
    ensures forall i :: 0 <= i < |r| ==> r[i] != ""
    ensures forall x :: x in r ==> x in xs
    ensures (forall i :: 0 <= i < |xs| ==> xs[i] != "") ==> r == xs
  {
    if |xs| == 0 then []
    else if xs[0] == "" then RemoveEmpty(xs[1..])
    else [xs[0]] + RemoveEmpty(xs[1..])
  }

  /** `xs.join(sep)`. */
  function Join(xs: seq<string>, sep: string): string {
    if |xs| == 0 then ""
    else if |xs| == 1 then xs[0]
    else xs[0] + sep + Join(xs[1..], sep)
  }

  /** A piece without the separator, followed by the separator, starts a new piece. */
  lemma {:induction false} SplitAfterPiece(a: string, b: string, sep: char)
    requires sep !in a
    ensures Split(a + [sep] + b, sep) == [a] + Split(b, sep)
  {
    if |a| == 0 {
      assert a + [sep] + b == [sep] + b;
      assert ([sep] + b)[1..] == b;
    } else {
      assert (a + [sep] + b)[1..] == a[1..] + [sep] + b;
      SplitAfterPiece(a[1..], b, sep);
      assert [a[0]] + a[1..] == a;
    }
  }

  /** A string without the separator is one piece. */
  lemma {:induction false} SplitNoSeparator(a: string, sep: char)
    requires sep !in a
    ensures Split(a, sep) == [a]
  {
    if |a| > 0 {
      SplitNoSeparator(a[1..], sep);
      assert [a[0]] + a[1..] == a;
    }
  }

  /** Splitting undoes joining, for a non-empty list of pieces that do not contain the separator. */
  lemma {:induction false} SplitJoin(ts: seq<string>, sep: char)
    requires |ts| >= 1
    requires forall i :: 0 <= i < |ts| ==> sep !in ts[i]
    ensures Split(Join(ts, [sep]), sep) == ts
  {
    if |ts| == 1 {
      SplitNoSeparator(ts[0], sep);
    } else {
      SplitJoin(ts[1..], sep);
      SplitAfterPiece(ts[0], Join(ts[1..], [sep]), sep);
      assert [ts[0]] + ts[1..] == ts;
    }
  }

  /** Decimal digits of a natural number, as `Number.prototype.toString` writes them. */
  function NatToString(n: nat): (r: string)
    ensures |r| >= 1
  {
    if n < 10 then [Digit(n)] else NatToString(n / 10) + [Digit(n % 10)]
  }

  function Digit(d: nat): char
    requires d < 10
  {
    ('0' as int + d) as char
  }

  /** Decimal form of an integer, with a leading minus sign when negative. */
  function IntToString(i: int): string {
    if i < 0 then "-" + NatToString(-i) else NatToString(i)
  }

  predicate IsDigit(c: char) {
    '0' <= c <= '9'
  }

  function DigitValue(c: char): nat
    requires IsDigit(c)
  {
    c as int - '0' as int
  }

  /** The longest prefix of decimal digits. */
  function LeadingDigits(s: string): (r: string)
    ensures |r| <= |s| && r == s[..|r|]
    ensures forall i :: 0 <= i < |r| ==> IsDigit(r[i])
    ensures |r| < |s| ==> !IsDigit(s[|r|])
  {
    if |s| == 0 || !IsDigit(s[0]) then "" else [s[0]] + LeadingDigits(s[1..])
  }

  /** The number a string of decimal digits denotes. */
  function DigitsValue(s: string): nat
    requires forall i :: 0 <= i < |s| ==> IsDigit(s[i])
  {
    if |s| == 0 then 0 else DigitsValue(s[..|s| - 1]) * 10 + DigitValue(s[|s| - 1])
  }

  /**
   * `parseInt(s, 10)`: leading whitespace skipped, an optional sign, then the longest run of
   * digits; `None` stands for NaN, when there is no digit.
   */
  function ParseInt(s: string): Option<int> {
    var t := TrimStart(s);
    var negative := |t| > 0 && t[0] == '-';
    var body := if |t| > 0 && (t[0] == '-' || t[0] == '+') then t[1..] else t;
    var digits := LeadingDigits(body);
    if digits == "" then None
    else
      var magnitude: int := DigitsValue(digits);
      Some(if negative then -magnitude else magnitude)
  }

  lemma {:induction false} NatToStringValue(n: nat)
    ensures forall i :: 0 <= i < |NatToString(n)| ==> IsDigit(NatToString(n)[i])
    ensures DigitsValue(NatToString(n)) == n
  {
    if n >= 10 {
      NatToStringValue(n / 10);
      var s := NatToString(n);
      assert s == NatToString(n / 10) + [Digit(n % 10)];
      assert s[..|s| - 1] == NatToString(n / 10);
    }
  }

  lemma {:induction false} LeadingDigitsAll(s: string)
    requires forall i :: 0 <= i < |s| ==> IsDigit(s[i])
    ensures LeadingDigits(s) == s
  {
    if |s| > 0 {
      LeadingDigitsAll(s[1..]);
      assert [s[0]] + s[1..] == s;
    }
  }

  lemma IntToStringNonEmpty(i: int)
    ensures IntToString(i) != ""
  {
  }

  /** `parseInt` reads back what `toString` wrote for every integer. */
  lemma ParseIntRoundTrip(i: int)
    ensures ParseInt(IntToString(i)) == Some(i)
  {
    var n: nat := if i < 0 then -i else i;
    NatToStringValue(n);
    LeadingDigitsAll(NatToString(n));
    var s := IntToString(i);
    assert !IsWhitespace(s[0]);
    if i < 0 {
      assert s[1..] == NatToString(n);
    }
  }
}

=== FILE: tier.dfy ===
/**
 * The subscription-tier policy (`useTier`): which tier-gated capabilities a signed-in user has,
 * from the user record and the current time.
 */
module TierPolicy {
  import opened Wrappers
  import opened Text
  import opened Clients

  /** The fields of the user record the policy reads; times are milliseconds since the epoch. */
  datatype User = User(tier: Option<string>, trialActive: bool, trialEndsAt: Option<int>, email: Option<string>)

  /** `TIER_LEVELS[name] ?? 0`: an unrecognised name has level 0. */
  function LevelOfName(name: string): nat {
    if name == "LIFETIME" then 1
    else if name == "LIFETIME_PRO" then 2
    else if name == "PRO" then 3
    else if name == "TEAM" then 4
    else 0
  }

  /** `user?.tier?.toUpperCase()`; an empty name is as falsy as a missing one. */
  function TierOf(user: Option<User>): Option<string> {
    if user.Some? && user.value.tier.Some? && user.value.tier.value != "" then Some(Upper(user.value.tier.value))
    else None
  }

  /** A trial is active when flagged and its end lies strictly after `now`. */
  predicate HasActiveTrial(user: Option<User>, now: int) {
    user.Some? && user.value.trialActive && user.value.trialEndsAt.Some? && user.value.trialEndsAt.value > now
  }

  /** A student has an email ending in ".edu", compared case-sensitively. */
  predicate IsStudent(user: Option<User>) {
    user.Some? && user.value.email.Some? && EndsWith(user.value.email.value, ".edu")
  }

  /** `hasMinimumTier`: missing tier, then active trial, then the student ceiling, then the raw level. */
  predicate HasMinimumTier(user: Option<User>, now: int, required: Tier) {
    if TierOf(user).None? then required == Free
    else if HasActiveTrial(user, now) then true
    else if IsStudent(user) && required != Pro && required != Team then Level(LifetimePro) >= Level(required)
    else LevelOfName(TierOf(user).value) >= Level(required)
  }

  /** `canAccessClient` delegates to `hasMinimumTier`. */
  predicate CanAccessClient(user: Option<User>, now: int, required: Tier) {
    HasMinimumTier(user, now, required)
  }

  predicate CanUseCloudSync(user: Option<User>, now: int) {
    HasMinimumTier(user, now, Pro)
  }

  predicate CanUseTeamFeatures(user: Option<User>) {
    TierOf(user) == Some("TEAM")
  }

  /** `isFree`: no tier, or the tier FREE. */
  predicate IsFree(user: Option<User>) {
    TierOf(user).None? || TierOf(user) == Some("FREE")
  }

  predicate CanAccessPaidFeatures(user: Option<User>, now: int) {
    !IsFree(user) || HasActiveTrial(user, now) || IsStudent(user)
  }

  lemma LevelOfTierName(t: Tier)
    ensures LevelOfName(TierName(t)) == Level(t)
  {
  }

  /** Without a tier only FREE is granted, even during an active trial. */
  lemma NoTierGrantsOnlyFree(user: Option<User>, now: int, required: Tier)
    requires TierOf(user).None?
    ensures HasMinimumTier(user, now, required) <==> required == Free
  {
  }

  /** With a tier and an active trial every tier is granted. */
  lemma TrialGrantsEveryTier(user: Option<User>, now: int, required: Tier)
    requires TierOf(user).Some? && HasActiveTrial(user, now)
    ensures HasMinimumTier(user, now, required)
  {
  }

  /**
   * With a tier and no trial, a student gets FREE, LIFETIME and LIFETIME_PRO whatever the raw tier,
   * while PRO and TEAM fall back to the raw level.
   */
  lemma StudentCeiling(user: Option<User>, now: int, required: Tier)
    requires TierOf(user).Some? && !HasActiveTrial(user, now) && IsStudent(user)
    ensures Level(required) <= Level(LifetimePro) ==> HasMinimumTier(user, now, required)
    ensures Level(required) > Level(LifetimePro) ==>
      (HasMinimumTier(user, now, required) <==> LevelOfName(TierOf(user).value) >= Level(required))
  {
  }

  /** Otherwise access compares the raw level of the upper-cased tier with the required level. */
  lemma RawLevelDecides(user: Option<User>, now: int, required: Tier)
    requires TierOf(user).Some? && !HasActiveTrial(user, now) && !IsStudent(user)
    ensures HasMinimumTier(user, now, required) <==> LevelOfName(Upper(user.value.tier.value)) >= Level(required)
  {
  }

  /** Whoever is granted a tier is granted every lower tier. */
  lemma HasMinimumTierMonotone(user: Option<User>, now: int, required: Tier, lower: Tier)
    requires Level(lower) <= Level(required)
    requires HasMinimumTier(user, now, required)
    ensures HasMinimumTier(user, now, lower)
  {
  }

  /** Cloud sync is the PRO check: never for a FREE student without a trial, always during a trial. */
  lemma CloudSyncRules(user: Option<User>, now: int)
    ensures CanUseCloudSync(user, now) == HasMinimumTier(user, now, Pro)
    ensures TierOf(user) == Some("FREE") && IsStudent(user) && !HasActiveTrial(user, now) ==> !CanUseCloudSync(user, now)
    ensures TierOf(user).Some? && HasActiveTrial(user, now) ==> CanUseCloudSync(user, now)
  {
  }

  /** Team features depend on the raw tier only: a trial or a student email changes nothing. */
  lemma TeamFeaturesIgnoreTrialAndStudent(u: User, now: int, trialActive: bool, trialEndsAt: Option<int>, email: Option<string>)
    ensures CanUseTeamFeatures(Some(u)) ==
            CanUseTeamFeatures(Some(u.(trialActive := trialActive, trialEndsAt := trialEndsAt, email := email)))
    ensures CanUseTeamFeatures(Some(u)) ==> HasMinimumTier(Some(u), now, Team)
  {
  }

  /** Being granted LIFETIME implies access to paid features. */
  lemma LifetimeImpliesPaidFeatures(user: Option<User>, now: int)
    requires HasMinimumTier(user, now, Lifetime)
    ensures CanAccessPaidFeatures(user, now)
  {
  }

  /** The converse fails: an unrecognised tier name opens paid features but has level 0. */
  lemma PaidFeaturesWithoutLifetime()
    ensures var u := Some(User(Some("gold"), false, None, None));
      CanAccessPaidFeatures(u, 0) && !HasMinimumTier(u, 0, Lifetime)
  {
    var up := Upper("gold");
    assert up[0] == 'G' && up[1] == 'O' && up[2] == 'L' && up[3] == 'D';
    assert up == "GOLD";
  }

  /** A student with a tier set can use every catalogue client. */
  lemma StudentAccessesEveryClient(user: Option<User>, now: int)
    requires TierOf(user).Some? && IsStudent(user)
    ensures forall i :: 0 <= i < |Catalogue| ==> CanAccessClient(user, now, Catalogue[i].requiredTier)
  {
    NoClientNeedsCloudTiers();
  }
}

=== FILE: update_check.dfy ===
/**
 * The daily check for a newer release. The three local-storage entries are the cache; the
 * running version, the clock and the release fetch are inputs.
 */
module UpdateCheck {
  import opened Wrappers
  import opened Text

  /** The stored version, latest release tag and time of the last fetch (`None` when never written). */
  datatype Cache = Cache(version: Option<string>, latest: Option<string>, time: Option<string>)

  /** The fields of the latest-release response; `None` is `undefined`. */
  datatype Release = Release(tagName: Option<string>, body: Option<string>)

  datatype UpdateInfo = UpdateInfo(hasUpdate: bool, latestVersion: Option<string>, releaseNotes: string, releaseUrl: string)

  /** What a check returns, whether it fetched, and the cache afterwards. */
  datatype CheckResult = CheckResult(info: Option<UpdateInfo>, fetched: bool, cache: Cache)

  const CacheDuration := 86400000
  const ReleaseUrl := "https://github.com/milisp/mcp-linker/releases/latest"
  const NoNotes := "No release notes available."

  /** `parseInt(time || "0", 10)`. */
  function LastCheck(c: Cache): Option<int> {
    ParseInt(if c.time.None? || c.time.value == "" then "0" else c.time.value)
  }

  /** `Date.now() - lastCheck < CACHE_DURATION`; an unparsable time (NaN) is never fresh. */
  predicate CacheFresh(c: Cache, now: int) {
    var last := LastCheck(c);
    last.Some? && now - last.value < CacheDuration
  }

  /** A previous check for the same version is fresh: no request is made. */
  predicate CacheHit(current: string, c: Cache, now: int) {
    c.version == Some(current) && c.latest.Some? && CacheFresh(c, now)
  }

  /**
   * `checkForUpdate`. `current` is `None` when the version cannot be read and `release` is an
   * error when the request or its body fails; both end in `null` without touching the cache.
   * A fetched release is cached before it is compared (an undefined tag is stored as "undefined").
   * `now` is the clock read for the freshness test and `storedAt` the later read taken when the
   * cache is written, after the response has arrived.
   */
  function CheckForUpdate(current: Option<string>, c: Cache, now: int, release: Result<Release>, storedAt: int): (r: CheckResult)
    ensures current.None? ==> r == CheckResult(None, false, c)
    ensures r.fetched <==> current.Some? && !CacheHit(current.value, c, now)
    ensures !r.fetched || release.Err? ==> r.info.None? && r.cache == c
    ensures r.info.Some? ==> r.info.value.hasUpdate && r.info.value.releaseUrl == ReleaseUrl
  {
    if current.None? then CheckResult(None, false, c)
    else if CacheHit(current.value, c, now) then CheckResult(None, false, c)
    else match release
      case Err(_) => CheckResult(None, true, c)
      case Ok(rel) =>
        var stored := Cache(Some(current.value), Some(rel.tagName.GetOr("undefined")), Some(IntToString(storedAt)));
        var info :=
          if rel.tagName != Some("v" + current.value) then
            Some(UpdateInfo(true, rel.tagName,
                            if rel.body.Some? && rel.body.value != "" then rel.body.value else NoNotes, ReleaseUrl))
          else None;
        CheckResult(info, true, stored)
  }

  /**
   * An update is reported exactly when the fetched tag is not "v" followed by the running version,
   * and the cache then holds the running version, the tag and the time the cache was written.
   */
  lemma UpdateReportedIff(current: string, c: Cache, now: int, rel: Release, storedAt: int)
    requires !CacheHit(current, c, now)
    ensures var r := CheckForUpdate(Some(current), c, now, Ok(rel), storedAt);
      && (r.info.Some? <==> rel.tagName != Some("v" + current))
      && (r.info.Some? ==> r.info.value.latestVersion == rel.tagName)
      && (r.info.Some? && (rel.body.None? || rel.body.value == "") ==> r.info.value.releaseNotes == NoNotes)
      && (r.info.Some? && rel.body.Some? && rel.body.value != "" ==> r.info.value.releaseNotes == rel.body.value)
      && r.cache == Cache(Some(current), Some(rel.tagName.GetOr("undefined")), Some(IntToString(storedAt)))
  {
  }

  /**
   * A fetch caches the running version and the time it was stored, so a check within a day of
   * that time makes no request.
   */
  lemma FetchThenHit(current: string, c: Cache, now: int, storedAt: int, later: int, rel: Release,
                     next: Result<Release>, laterStoredAt: int)
    requires !CacheHit(current, c, now)
    requires later < storedAt + CacheDuration
    ensures var first := CheckForUpdate(Some(current), c, now, Ok(rel), storedAt);
      var second := CheckForUpdate(Some(current), first.cache, later, next, laterStoredAt);
      !second.fetched && second.info.None? && second.cache == first.cache
  {
    ParseIntRoundTrip(storedAt);
    var first := CheckForUpdate(Some(current), c, now, Ok(rel), storedAt);
    IntToStringNonEmpty(storedAt);
    assert LastCheck(first.cache) == Some(storedAt);
  }

  /** A day after the last fetch the cache has expired and the next check fetches again. */
  lemma ExpiredCacheFetches(current: string, c: Cache, now: int, release: Result<Release>, storedAt: int)
    requires LastCheck(c).Some? && now - LastCheck(c).value >= CacheDuration
    ensures CheckForUpdate(Some(current), c, now, release, storedAt).fetched
  {
  }

  /** A release response without a tag (such as a rate-limit reply) is reported as an update to an unknown version. */
  lemma MissingTagReportsUpdate(current: string, c: Cache, now: int, storedAt: int)
    requires !CacheHit(current, c, now)
    ensures var r := CheckForUpdate(Some(current), c, now, Ok(Release(None, None)), storedAt);
      r.info == Some(UpdateInfo(true, None, NoNotes, ReleaseUrl))
      && r.cache.latest == Some("undefined")
  {
  }
}

=== FILE: wrappers.dfy ===
/** Optional values and results with an error message, shared by every module. */
module Wrappers {

  /** A value that may be absent (`null`, `undefined` or a missing key in the source). */
  datatype Option<+T> = None | Some(value: T) {
    function GetOr(default: T): T {
      match this
      case Some(v) => v
      case None => default
    }
  }

  /** The outcome of an operation that can fail with a message (Rust's `Result<T, String>`). */
  datatype Result<+T> = Ok(value: T) | Err(error: string)
}
